=== FILE: README.md ===
# crawly, modelled in Dafny

This project models the decision core of the `crawly` web crawler (`src/lib.rs`):

- the crawler's configuration record, with its defaults and its builder setters;
- the per-domain robots.txt cache and how it is filled on a miss;
- the Crawl-delay extraction applied to a freshly fetched robots.txt;
- one call of `Crawler::crawl`: the admission check, the robots step, the Cloudflare-challenge skip, the media-type filter, and storing the page;
- the recursion into the page's links, and `Crawler::start`.

The model runs under a sequential schedule. Children are crawled one after another, in the order their links appear.

The files:

| file | module | contents |
|---|---|---|
| `wrappers.dfy` | `Wrappers` | `Option` (with `GetOr`, Rust's `unwrap_or`) and `Result` |
| `index_map.dfy` | `IndexMaps` | an insertion-ordered map in the manner of the `indexmap` crate |
| `robots_txt.dfy` | `RobotsTxt` | Rust's `str::lines`, `contains`, `split(':').last()`, `trim` and `u64::from_str`, and `CrawlDelay` built from them |
| `config.dfy` | `Config` | `CrawlerConfig`, its defaults, and `CrawlerBuilder` with its `with_*` setters |
| `robots_cache.dfy` | `RobotsCache` | the cache entry, the domain key, and get-or-populate |
| `crawler.dfy` | `Crawling` | the specification functions `RobotsGate`, `PageVerdict` and `Decide`, plus `class Crawler` |
| `crawl_properties.dfy` | `CrawlProperties` | what one crawl call guarantees for each way it can end |

`class Crawler` keeps the robots cache as a field, as the Rust struct does. The `visited` set and the `content` map are locals of `start` that every `crawl` shares. They become fields too, and `Start` resets them.

Two ghost fields record history:

- `trace` records every `crawl` call as a `(url, depth)` pair, in the order the calls begin.
- `delays` records every wait, in the order waited.

The libraries the crawler calls are the fields of a `Collaborators` value. Each field is an arbitrary total function, so every property holds whatever these functions answer, given that a repeated request gets the same answer. The libraries covered:

- `Url::parse`, `scheme`, `host`, `domain` and `join`;
- the HTTP client, for robots.txt and for pages;
- `DefaultMatcher::one_agent_allowed_by_robots`;
- `infer::get` and `Mime::from_str`;
- `String::from_utf8`;
- `Crawler::extract_links`.

### Where the code departs from its documentation

The model follows the code in each of these cases.

- **Default delay.** When no line of a fetched robots.txt yields a delay, the delay is the constant `RATE_LIMIT_WAIT_SECONDS` (1), not the configured `rate_limit_wait_seconds` (`RobotsTxt.CrawlDelayDefault`, `CrawlProperties.FreshPolicyIsCachedAndObeyed`).
- **Unparseable Crawl-delay lines.** A `Crawl-delay` line whose value does not parse is skipped, and the search goes on to later lines (`RobotsTxt.SkipsUnparseable`).
- **Media-type filter is inverted.** With a non-empty `allowed_mimes`, the filter drops a page whose sniffed type is listed, cannot be sniffed, or does not parse. It keeps a page whose type parses and is not listed. This is the opposite of the setter's doc comment (`CrawlProperties.MimeFilterDecides`, `CrawlProperties.StoredPageTypeIsNotListed`).
- **Robots.txt responses of any status are used.** Only a request that cannot be sent counts as "no robots.txt". In that case nothing is cached, no rule is checked, and the crawler does not wait at all (`CrawlProperties.UnreachableRobotsFailsOpen`).
- **Unreadable robots.txt body.** A robots.txt response whose body cannot be read makes `crawl` return an error (`CrawlProperties.UnreadableRobotsIsAnError`).
- **Disallowed pages can be stored.** A page is not always checked against its own site's robots.txt. If its robots.txt request cannot be sent, the page is stored without any check. A page is judged by whatever body is cached under its key, and for an IP-address host that can be another host's robots.txt. What holds is `Crawling.RobotsPassed`, which `Crawling.Crawler.Start` states of every returned page.
- **Cache key.** The key is `url.domain()`, which is the whole host name, or `""` for an IP-address host (`RobotsCache.DomainKey`). So `http` and `https` and every port of one host share one entry. Every IP-address host shares the single entry under `""`, so the first such host's robots.txt and delay govern all the others for as long as the crawler lives (`CrawlProperties.SameKeySharesPolicy`).
- **Errors at the root.** An error of the root call is returned by `start` (`Crawling.Crawler.Start`). Errors of child calls are dropped.
- **The cache-hit fallback never fires.** The `unwrap_or(RATE_LIMIT_WAIT_SECONDS)` on a cache hit is unreachable, because the crawler stores every entry with `Some(delay)` (`RobotsCache.HitDelayIsParsedDelay`).

## Model

| member | source | states |
|---|---|---|
| IndexMaps.Empty | src/lib.rs:346-348 | the fresh content map is valid and holds no key |
| IndexMaps.Insert | src/lib.rs:287-290 | insertion sets the key's value and keeps every other entry; a new key is appended to the order, and an existing key keeps its place |
| IndexMaps.ExtendsTransitive | src/lib.rs:220-226 | "an entry of `a` is still in `b` with the same value, in the same order" composes over successive insertions |
| IndexMaps.LengthIsSize | src/lib.rs:343-354 | an insertion-ordered map lists each key once, so its length is its number of keys |
| RobotsTxt.LineLength | src/lib.rs:209 | the first line ends at the first '\n', or at the end of the text |
| RobotsTxt.StripCr | src/lib.rs:209 | the definition: one trailing '\r' is removed from a line that was ended by '\n' |
| RobotsTxt.Lines | src/lib.rs:209 | the definition of `str::lines`: cut after every '\n', drop the '\n' and then one '\r' before it, keep a final unterminated line as it is (with any bare final '\r'), and produce no empty line after a final '\n'; its meaning is stated by the lemmas below |
| RobotsTxt.LinesOfTerminated | src/lib.rs:209 | `lines()` gives back lines joined with '\n' when none holds '\n' or ends in '\r', and it drops the empty piece after a final '\n' |
| RobotsTxt.LinesOfLine | src/lib.rs:209 | a plain line followed by '\n' is the first line of the text |
| RobotsTxt.LinesOfCrLf | src/lib.rs:209 | a plain line ended by "\r\n" is the first line of the text, without either character |
| RobotsTxt.SingleLine | src/lib.rs:209 | a non-empty text without '\n' is one line |
| RobotsTxt.LinesOfTwo | src/lib.rs:209 | a plain line, '\n', and a last line without '\n' are two lines |
| RobotsTxt.Contains | src/lib.rs:211 | `contains` holds exactly when the token occurs at some position |
| RobotsTxt.LastSegment | src/lib.rs:212 | `split(':').last()` is the suffix after the last ':' and holds no ':'; it is the whole line when there is no ':' |
| RobotsTxt.LastSegmentAfterColon | src/lib.rs:212 | the piece after `pre + ":" + v` is `v` whenever `v` has no ':' |
| RobotsTxt.TrimStart | src/lib.rs:212 | the result is a suffix, everything removed is white space, and the result does not start with white space |
| RobotsTxt.TrimEnd | src/lib.rs:212 | the result is a prefix, everything removed is white space, and the result does not end with white space |
| RobotsTxt.Trim | src/lib.rs:212 | `trim` yields a text with no white space at either end, and no longer than its input |
| RobotsTxt.TrimPadded | src/lib.rs:212 | trimming removes exactly the white-space padding around a trimmed text |
| RobotsTxt.ParseU64 | src/lib.rs:212 | `u64::from_str` accepts nothing on an empty string or a lone '+' |
| RobotsTxt.DecimalValue | src/lib.rs:212 | the decimal notation of `n` is made of digits and denotes `n` |
| RobotsTxt.ParseDecimal | src/lib.rs:212 | parsing the decimal notation of a `u64`, with or without a leading '+', gives the value back |
| RobotsTxt.ParseRejectsOverflow | src/lib.rs:212 | a value of 2^64 or more is refused, not wrapped |
| RobotsTxt.ParseRejectsSign | src/lib.rs:212 | a leading '-' and a lone '+' are refused |
| RobotsTxt.LeadingZerosValue | src/lib.rs:212 | leading zeros do not change the value of a digit string |
| RobotsTxt.ParseLeadingZeros | src/lib.rs:212 | `u64::from_str` accepts leading zeros, with or without a leading '+', and ignores them |
| RobotsTxt.ParseRejectsNonDigit | src/lib.rs:212 | any character that is not a digit makes the parse fail, except one '+' in first position |
| RobotsTxt.ExampleParses | src/lib.rs:212 | `"007"` parses to 7, and `"3x"` parses to nothing |
| RobotsTxt.DirectiveLine | src/lib.rs:211-212 | a line `Crawl-delay:<v>` yields whatever `v` trims and parses to |
| RobotsTxt.DirectiveLineDelay | src/lib.rs:211-212 | the line `Crawl-delay: <n>` yields `n` for every `u64` `n` |
| RobotsTxt.ParseFailsIffNotANumber | src/lib.rs:212 | `u64::from_str` refuses a text exactly when it is not a number: it is empty or a lone '+', it holds a non-digit other than a leading '+', or its digits denote 2^64 or more |
| RobotsTxt.NonNumericDirective | src/lib.rs:211-212 | a `Crawl-delay` line whose trimmed value is not a number, in any of the ways above, yields nothing |
| RobotsTxt.LineDelay | src/lib.rs:210-216 | the definition of the per-line step: a line that contains "Crawl-delay" yields what its last ':'-segment trims and parses to, and any other line yields nothing; `DirectiveLine` and `NonNumericDirective` state it on directive lines |
| RobotsTxt.FirstSome | src/lib.rs:217 | the definition of `next()` on the filtered values: the first present value, if any |
| RobotsTxt.FirstSomeIsFirst | src/lib.rs:217 | `next()` returns the first present value |
| RobotsTxt.FirstSomeNone | src/lib.rs:217-218 | `next()` returns nothing when no value is present |
| RobotsTxt.FirstSomeExists | src/lib.rs:217 | either some value is the first present one, or no value is present |
| RobotsTxt.CrawlDelay | src/lib.rs:208-218 | the definition: `next()` of the per-line delays, or 1; its meaning is stated by the next four lemmas |
| RobotsTxt.QualifyingCases | src/lib.rs:210-217 | among any lines, either one is the first to yield a delay or none yields one |
| RobotsTxt.CrawlDelayCases | src/lib.rs:208-218 | every body falls under one of the two lemmas that follow, so together they fix the delay of every body |
| RobotsTxt.CrawlDelayIsFirstQualifying | src/lib.rs:208-218 | the extracted delay is the value of the first line that yields one |
| RobotsTxt.CrawlDelayDefault | src/lib.rs:208-218 | when no line yields a delay, the result is 1, whatever the configured rate |
| RobotsTxt.SingleDirective | src/lib.rs:208-218 | a body that is one `Crawl-delay: <n>` line gives `n` |
| RobotsTxt.SkipsUnparseable | src/lib.rs:210-217 | a matching line that does not parse is skipped, and the next line that yields a value wins |
| RobotsTxt.ExampleSingleDirective | src/lib.rs:208-218 | `"Crawl-delay: 3"` gives 3 |
| RobotsTxt.ExampleSkipsUnparseable | src/lib.rs:208-218 | `"Crawl-delay: x\nCrawl-delay: 4"` gives 4 |
| Config.DefaultConfig | src/lib.rs:45-58 | the defaults: agent "CrawlyRustCrawler", depth 5, 15 pages, 1000 requests, a 1-second rate, robots on, no media types |
| Config.NewBuilder | src/lib.rs:65-77 | a new builder holds the default configuration |
| Config.WithMaxDepth | src/lib.rs:80-83 | sets `max_depth` and leaves every other field as it was |
| Config.WithMaxPages | src/lib.rs:86-89 | sets `max_pages` and leaves every other field as it was |
| Config.WithMaxConcurrentRequests | src/lib.rs:92-95 | sets `max_concurrent_requests` and leaves every other field as it was |
| Config.WithRateLimitWaitSeconds | src/lib.rs:98-101 | sets `rate_limit_wait_seconds` and leaves every other field as it was |
| Config.WithRobots | src/lib.rs:104-107 | sets `robots` and leaves every other field as it was |
| Config.WithUserAgent | src/lib.rs:110-113 | sets `user_agent` and leaves every other field as it was |
| Config.WithAllowedMimes | src/lib.rs:116-119 | sets `allowed_mimes` and leaves every other field as it was |
| Config.SettersCoverEveryField | src/lib.rs:79-119 | calling all seven setters on a new builder yields exactly the configuration asked for |
| Config.SetterLastWins | src/lib.rs:79-119 | for each of the seven setters, the last of two calls wins |
| Config.DepthAndPagesCommute | src/lib.rs:80-89 | `with_max_depth` and `with_max_pages` commute |
| RobotsCache.DomainKey | src/lib.rs:189 | the key is the domain, or "" when the host has none |
| RobotsCache.Consistent | src/lib.rs:220-226 | the definition of the invariant the crawler keeps: every cached entry holds `Some` of the delay parsed from its own body |
| RobotsCache.GetOrPopulate | src/lib.rs:194-231 | the cache stays valid and only grows: no entry is removed or changed, the only new key is the domain, entries stay consistent with their bodies, a known policy is the body cached under the domain, and there is no policy exactly when the domain was not cached and its request could not be sent |
| RobotsCache.HitAnswersFromEntry | src/lib.rs:194-202 | a hit leaves the cache unchanged and answers with the stored body and `stored.unwrap_or(1)` |
| RobotsCache.HitDelayIsParsedDelay | src/lib.rs:199-202 | in a cache the crawler filled, a hit's delay is the delay parsed from the stored body |
| RobotsCache.MissInsertsOneEntry | src/lib.rs:203-228 | a miss with a response adds exactly the domain, at the end of the order, holding the body and `Some(delay)`, and changes no other entry |
| RobotsCache.MissWithoutBodyStoresNothing | src/lib.rs:203-231 | a failed send, or a body that cannot be read, leaves the cache unchanged |
| Crawling.Admits | src/lib.rs:164-177 | the definition of the admission check: depth within `max_depth`, fewer than `max_pages` visited, and the URL not yet visited |
| Crawling.RobotsUrl | src/lib.rs:184-188 | the definition of the robots.txt location `<scheme>://<host>/robots.txt` |
| Crawling.IsChallenge | src/lib.rs:257 | the definition: the response carries `cf-mitigated: challenge` |
| Crawling.MimeDiscards | src/lib.rs:266-276 | the definition of the filter as written: with a non-empty list, drop a page whose type is listed, unknown or unparseable |
| Crawling.RobotsGate | src/lib.rs:182-252 | the robots step only extends the cache; with robots off it passes after waiting the configured rate; it stops only with Disallowed or an error |
| Crawling.PageVerdict | src/lib.rs:254-286 | a fetched page is never refused or disallowed, and a stored page came from a received response that was no challenge |
| Crawling.Decide | src/lib.rs:164-301 | a call is refused exactly when the admission check fails; the cache only grows, and it is untouched when the call is refused or robots handling is off |
| Crawling.PageKept | src/lib.rs:254-286 | the definition of a page that is kept with a given text: a response that was no challenge, whose body was read, passed the filter as written, and decodes as UTF-8 to that text |
| Crawling.StoredIffKept | src/lib.rs:254-286 | a page is stored with a text exactly when it was kept with that text |
| Crawling.RobotsPassed | src/lib.rs:182-252 | the definition of "the robots step let the URL through": with robots handling on, the URL has a host, and the body cached under its key allows it to the user agent, or its robots.txt request could not be sent |
| Crawling.RobotsPassedExtends | src/lib.rs:220-226 | a pass stays recorded in every later cache, because entries are only ever added |
| Crawling.GatePassRecorded | src/lib.rs:182-252 | a URL the robots step lets through is recorded as passed in the cache the step leaves |
| Crawling.StoredPassedRobots | src/lib.rs:182-252 | a page that is stored passed the robots step, as the cache after its decision records it |
| Crawling.Crawler.constructor | src/lib.rs:136-149 | a new crawler holds its configuration and an empty robots cache |
| Crawling.Crawler.ConsultRobots | src/lib.rs:189-233 | the in-place cache lookup and insertion computes exactly `GetOrPopulate` |
| Crawling.Crawler.PassRobots | src/lib.rs:182-252 | the robots step updates the cache and the list of waits as `RobotsGate` decides |
| Crawling.Crawler.FetchPage | src/lib.rs:254-286 | fetching and classifying the page computes exactly `PageVerdict` |
| Crawling.Crawler.Visit | src/lib.rs:164-301 | a visit returns `Decide`'s verdict; it adds the URL to visited when the page is discarded or stored, stores the text under a new key when the page is stored, and changes nothing else |
| Crawling.Crawler.Crawl | src/lib.rs:155-325 | every key of content is visited and visited never exceeds max_pages; an error is returned exactly when the page itself fails, and no child's error reaches the parent; an unstored page leaves content unchanged and starts no other call, and it adds itself to visited only when it was discarded; the robots step may still have cached the domain's entry, and the waits recorded are exactly the ones its decision asked for; a stored page's own wait is recorded before any wait of its children; a stored page's cache entry survives the child calls; links are followed only after a store that leaves room; every link that joins is crawled at depth+1; every depth+1 call comes from a joined link |
| Crawling.Crawler.FollowLinks | src/lib.rs:304-320 | every link that joins onto the page is crawled at depth+1, links that do not join are dropped, and all later calls are deeper |
| Crawling.Crawler.CrawlLink | src/lib.rs:315-318 | a link that does not join starts no crawl; one that joins starts exactly one, at depth+1 |
| Crawling.Crawler.Start | src/lib.rs:343-354 | a seed that does not parse gives an error and changes nothing (cache, sets, trace and waits); otherwise start fails exactly when the root page fails, and returns at most max_pages pages, the root first when it was stored, and nothing when it was not; every returned page was kept, i.e. it is the UTF-8 decoding of a response that was no challenge and, with a non-empty list, whose sniffed type parsed and is not listed; with robots handling on, every returned page has a host and either the robots.txt body cached under its key allows it, or its robots.txt request could not be sent |
| CrawlProperties.StoredPagePassedEveryCheck | src/lib.rs:164-290 | a stored page was admitted, had a host and a robots.txt that allowed it or could not be requested, was no challenge, and its text is the UTF-8 decoding of the body |
| CrawlProperties.StoredPageTypeIsNotListed | src/lib.rs:266-283 | with a non-empty list, a stored page's sniffed type parsed and is not in the list |
| CrawlProperties.MimeFilterDecides | src/lib.rs:266-290 | the filter discards exactly when the list is non-empty and the type is listed, unknown or unparseable; with an empty list it never discards; a page that is kept ends as its UTF-8 decoding or an error |
| CrawlProperties.ChallengeIsSkipped | src/lib.rs:257-261 | a `cf-mitigated: challenge` response is skipped |
| CrawlProperties.RobotsOffWaitsConfiguredRate | src/lib.rs:250-252 | with robots off, the crawler waits the configured rate, consults nothing, and the page alone decides |
| CrawlProperties.UnreachableRobotsFailsOpen | src/lib.rs:203-249 | when a robots.txt request cannot be sent, nothing is cached, nothing is waited, and no rule is checked |
| CrawlProperties.MissingHostIsAnError | src/lib.rs:184-188 | with robots on, a URL without a host is an error, raised before any wait |
| CrawlProperties.CachedPolicyDecides | src/lib.rs:194-248 | a cached domain is not fetched again: the cache stays as it is, the wait is the stored delay, and the stored rules decide |
| CrawlProperties.FreshPolicyIsCachedAndObeyed | src/lib.rs:203-248 | a fresh robots.txt is cached under the domain; the crawler waits its parsed delay, or 1 when it names none, and then obeys its rules |
| CrawlProperties.SameKeySharesPolicy | src/lib.rs:189-248 | once one URL's fresh robots.txt is cached, every later URL with the same key (another scheme or port of the host, or any IP-address host) is judged by that body and waits its delay, for as long as the crawler lives |
| CrawlProperties.UnreadableRobotsIsAnError | src/lib.rs:203-204 | an unreadable robots.txt body is an error |
| CrawlProperties.ExhaustedBudgetIsRefused | src/lib.rs:164-177 | past the depth limit or with the page budget spent, a call changes nothing; with no page budget the seed itself is refused |
| CrawlProperties.VisitedUrlIsRefused | src/lib.rs:164-177 | a URL already visited is refused and changes nothing |

## Left out

- Concurrency is not modelled: the semaphore, the `RwLock` guards, and the interleavings of `join_all`. Children run one after another. Under real interleaving, several calls can pass the admission check before any of them inserts, so `visited` can exceed `max_pages`. The bound `|visited| <= max_pages` holds only for the sequential schedule.
- Crawling.Crawler.Start: with `max_concurrent_requests = 0`, which `with_max_concurrent_requests(0)` accepts, the semaphore holds no permit, so `semaphore.acquire()` (src/lib.rs:179) never completes. Once the seed is admitted, `start` never returns. The model has no semaphore, so `Start` returns as if there were permits.
- Sleeping is not modelled. Each wait is recorded as its number of seconds in the ghost sequence `delays`.
- `tracing` instrumentation and debug logging are left out.
- The client builder can fail inside `Crawler::from_config`. This failure is not modelled; the constructor always succeeds.
- The HTTP client, `url`, `robotstxt`, `infer`, `mime`, UTF-8 validation and `scraper` are foreign libraries. They appear only as the arbitrary functions in `Collaborators`.
- `Crawler::extract_links` is modelled as total. Its `?` can only fail on the constant selector "a", which always parses.
- Response headers are modelled as a map from the lower-case header name to the first value. Repeated headers are not modelled.
- URLs are identified by their serialization.
- `HeaderValue::from_str("challenge")?` is not modelled, because it cannot fail.
- Crawling.Crawler.Start: does not list which descendant pages get stored. It states that there are at most `max_pages` of them and that each was kept (`Crawling.PageKept`).
- Repeated requests are assumed to get the same answer, because each collaborator is a function. The crawler does repeat requests within one run. A challenged, failed or disallowed URL is not marked visited, so a later link fetches it again. A host whose robots.txt request could not be sent is asked again. A real server may answer the second request differently; the model does not cover that.

=== FILE: config.dfy ===
/**
 * The crawler's configuration record, its defaults and the builder whose
 * `with_*` setters each replace one field (src/lib.rs:18-124).
 */
module Config {
  import opened RobotsTxt

  /** A media type in its canonical text form, as `mime::Mime` compares it. */
  type Mime = string

  const USER_AGENT: string := "CrawlyRustCrawler"
  const MAX_DEPTH: nat := 5
  const MAX_PAGES: nat := 15
  const MAX_CONCURRENT_REQUESTS: nat := 1000

  datatype CrawlerConfig = CrawlerConfig(
    userAgent: string,
    maxDepth: nat,
    maxPages: nat,
    maxConcurrentRequests: nat,
    rateLimitWaitSeconds: U64,
    robots: bool,
    allowedMimes: seq<Mime>)

  datatype CrawlerBuilder = CrawlerBuilder(config: CrawlerConfig)

  /** The fields of the configuration, to say which one a setter may touch. */
  datatype Field =
    | UserAgent | MaxDepth | MaxPages | MaxConcurrentRequests
    | RateLimitWaitSeconds | Robots | AllowedMimes

  /** `a` and `b` agree on every field except possibly `f`. */
  predicate AgreeExcept(a: CrawlerConfig, b: CrawlerConfig, f: Field) {
    && (f != UserAgent ==> a.userAgent == b.userAgent)
    && (f != MaxDepth ==> a.maxDepth == b.maxDepth)
    && (f != MaxPages ==> a.maxPages == b.maxPages)
    && (f != MaxConcurrentRequests ==> a.maxConcurrentRequests == b.maxConcurrentRequests)
    && (f != RateLimitWaitSeconds ==> a.rateLimitWaitSeconds == b.rateLimitWaitSeconds)
    && (f != Robots ==> a.robots == b.robots)
    && (f != AllowedMimes ==> a.allowedMimes == b.allowedMimes)
  }

  /** `CrawlerConfig::default`. */
  function DefaultConfig(): (c: CrawlerConfig)
    ensures c.userAgent == "CrawlyRustCrawler"
    ensures c.maxDepth == 5 && c.maxPages == 15 && c.maxConcurrentRequests == 1000
    ensures c.rateLimitWaitSeconds == 1
    ensures c.robots && c.allowedMimes == []
  {
    CrawlerConfig(USER_AGENT, MAX_DEPTH, MAX_PAGES, MAX_CONCURRENT_REQUESTS,
                  RATE_LIMIT_WAIT_SECONDS, true, [])
  }

  /** `CrawlerBuilder::new` (and `CrawlerBuilder::default`). */
  function NewBuilder(): (b: CrawlerBuilder)
    ensures b.config == DefaultConfig()
  {
    CrawlerBuilder(DefaultConfig())
  }

  function WithMaxDepth(b: CrawlerBuilder, depth: nat): (r: CrawlerBuilder)
    ensures r.config.maxDepth == depth && AgreeExcept(b.config, r.config, MaxDepth)
  {
    CrawlerBuilder(b.config.(maxDepth := depth))
  }

  function WithMaxPages(b: CrawlerBuilder, pages: nat): (r: CrawlerBuilder)
    ensures r.config.maxPages == pages && AgreeExcept(b.config, r.config, MaxPages)
  {
    CrawlerBuilder(b.config.(maxPages := pages))
  }

  function WithMaxConcurrentRequests(b: CrawlerBuilder, requests: nat): (r: CrawlerBuilder)
    ensures r.config.maxConcurrentRequests == requests
    ensures AgreeExcept(b.config, r.config, MaxConcurrentRequests)
  {
    CrawlerBuilder(b.config.(maxConcurrentRequests := requests))
  }

  function WithRateLimitWaitSeconds(b: CrawlerBuilder, seconds: U64): (r: CrawlerBuilder)
    ensures r.config.rateLimitWaitSeconds == seconds
    ensures AgreeExcept(b.config, r.config, RateLimitWaitSeconds)
  {
    CrawlerBuilder(b.config.(rateLimitWaitSeconds := seconds))
  }

  function WithRobots(b: CrawlerBuilder, robots: bool): (r: CrawlerBuilder)
    ensures r.config.robots == robots && AgreeExcept(b.config, r.config, Robots)
  {
    CrawlerBuilder(b.config.(robots := robots))
  }

  function WithUserAgent(b: CrawlerBuilder, userAgent: string): (r: CrawlerBuilder)
    ensures r.config.userAgent == userAgent && AgreeExcept(b.config, r.config, UserAgent)
  {
    CrawlerBuilder(b.config.(userAgent := userAgent))
  }

  function WithAllowedMimes(b: CrawlerBuilder, mimes: seq<Mime>): (r: CrawlerBuilder)
    ensures r.config.allowedMimes == mimes && AgreeExcept(b.config, r.config, AllowedMimes)
  {
    CrawlerBuilder(b.config.(allowedMimes := mimes))
  }

  /**
   * Setting every field, in the order the setters are declared, yields exactly
   * the configuration asked for: each setter reaches its own field only.
   */
  lemma SettersCoverEveryField(c: CrawlerConfig)
    ensures WithAllowedMimes(WithUserAgent(WithRobots(WithRateLimitWaitSeconds(
              WithMaxConcurrentRequests(WithMaxPages(WithMaxDepth(NewBuilder(),
              c.maxDepth), c.maxPages), c.maxConcurrentRequests),
              c.rateLimitWaitSeconds), c.robots), c.userAgent), c.allowedMimes).config == c
  {
  }

  /** For every setter, the last of two calls wins. */
  lemma SetterLastWins(b: CrawlerBuilder, first: CrawlerConfig, second: CrawlerConfig)
    ensures WithMaxDepth(WithMaxDepth(b, first.maxDepth), second.maxDepth) == WithMaxDepth(b, second.maxDepth)
    ensures WithMaxPages(WithMaxPages(b, first.maxPages), second.maxPages) == WithMaxPages(b, second.maxPages)
    ensures WithMaxConcurrentRequests(WithMaxConcurrentRequests(b, first.maxConcurrentRequests),
                                      second.maxConcurrentRequests)
         == WithMaxConcurrentRequests(b, second.maxConcurrentRequests)
    ensures WithRateLimitWaitSeconds(WithRateLimitWaitSeconds(b, first.rateLimitWaitSeconds),
                                     second.rateLimitWaitSeconds)
         == WithRateLimitWaitSeconds(b, second.rateLimitWaitSeconds)
    ensures WithRobots(WithRobots(b, first.robots), second.robots) == WithRobots(b, second.robots)
    ensures WithUserAgent(WithUserAgent(b, first.userAgent), second.userAgent) == WithUserAgent(b, second.userAgent)
    ensures WithAllowedMimes(WithAllowedMimes(b, first.allowedMimes), second.allowedMimes)
         == WithAllowedMimes(b, second.allowedMimes)
  {
  }

  /** `with_max_depth` and `with_max_pages` commute. */
  lemma DepthAndPagesCommute(b: CrawlerBuilder, d: nat, p: nat)
    ensures WithMaxPages(WithMaxDepth(b, d), p) == WithMaxDepth(WithMaxPages(b, p), d)
  {
  }
}

=== FILE: crawl_properties.dfy ===
/**
 * What one call of `crawl` guarantees about a single page, stated on
 * `Decide`, the function the crawler's `Visit` method is proved against.
 */
module CrawlProperties {
  import opened Wrappers
  import opened IndexMaps
  import opened RobotsTxt
  import opened Config
  import opened RobotsCache
  import opened Crawling

  /** The robots.txt lookup `crawl` performs for `url`, whose host is `host`. */
  function LookupFor(io: Collaborators, cache: Cache, url: Url, host: string): (l: Lookup)
    requires IndexMaps.Valid(cache)
    ensures Extends(l.cache, cache)
  {
    GetOrPopulate(cache, DomainKey(io.domain(url)), io.getRobots(RobotsUrl(io.scheme(url), host)))
  }

  /**
   * A stored page passed every check: it was admitted; with robots
   * handling on its URL has a host, its robots.txt was readable or
   * unreachable, and a known policy allows it; the response was no
   * challenge; and the text is the UTF-8 decoding of the body.
   */
  lemma StoredPagePassedEveryCheck(cfg: CrawlerConfig, io: Collaborators, cache: Cache,
                                   visited: set<Url>, url: Url, depth: nat)
    requires IndexMaps.Valid(cache)
    requires Decide(cfg, io, cache, visited, url, depth).verdict.Stored?
    ensures Admits(cfg, visited, url, depth)
    ensures cfg.robots ==> io.host(url).Some?
    ensures cfg.robots ==>
      var l := LookupFor(io, cache, url, io.host(url).value);
      && !l.probe.Unreadable?
      && (l.probe.Known? ==> io.allowedByRobots(l.probe.policy.text, cfg.userAgent, url))
    ensures io.get(url).Received? && !IsChallenge(io.get(url).headers)
    ensures io.get(url).body.Some?
    ensures io.decodeUtf8(io.get(url).body.value)
         == Some(Decide(cfg, io, cache, visited, url, depth).verdict.text)
  {
    var g := RobotsGate(cfg, io, cache, url);
    assert g.gate == Pass;
    assert Decide(cfg, io, cache, visited, url, depth).verdict == PageVerdict(cfg, io, url);
  }

  /**
   * The media-type filter keeps the opposite of what an allow-list
   * suggests: once the list is non-empty, a stored page's sniffed type
   * parsed and is NOT in the list.
   */
  lemma StoredPageTypeIsNotListed(cfg: CrawlerConfig, io: Collaborators, cache: Cache,
                                  visited: set<Url>, url: Url, depth: nat)
    requires IndexMaps.Valid(cache) && |cfg.allowedMimes| > 0
    requires Decide(cfg, io, cache, visited, url, depth).verdict.Stored?
    ensures io.get(url).Received? && io.get(url).body.Some?
    ensures var sniffed := io.sniff(io.get(url).body.value);
      && sniffed.Some? && io.parseMime(sniffed.value).Some?
      && io.parseMime(sniffed.value).value !in cfg.allowedMimes
  {
  }

  /**
   * For a page that reached the filter, the filter discards it exactly
   * when the list is non-empty and the type is listed, unknown or
   * unparseable; with an empty list it never discards.
   */
  lemma MimeFilterDecides(cfg: CrawlerConfig, io: Collaborators, url: Url,
                          headers: map<string, string>, page: seq<Byte>)
    requires io.get(url) == Received(headers, Some(page)) && !IsChallenge(headers)
    ensures PageVerdict(cfg, io, url).Discarded? <==>
      && |cfg.allowedMimes| > 0
      && (|| io.sniff(page).None?
          || io.parseMime(io.sniff(page).value).None?
          || io.parseMime(io.sniff(page).value).value in cfg.allowedMimes)
    ensures !PageVerdict(cfg, io, url).Discarded? ==>
      PageVerdict(cfg, io, url) == (match io.decodeUtf8(page)
                                    case None => Failed(InvalidUtf8)
                                    case Some(text) => Stored(text))
    ensures cfg.allowedMimes == [] ==> !PageVerdict(cfg, io, url).Discarded?
  {
  }

  /** A challenged response is skipped without an error and without being recorded. */
  lemma ChallengeIsSkipped(cfg: CrawlerConfig, io: Collaborators, url: Url,
                           headers: map<string, string>, body: Option<seq<Byte>>)
    requires io.get(url) == Received(headers, body) && IsChallenge(headers)
    ensures PageVerdict(cfg, io, url) == Challenged
  {
  }

  /**
   * With robots handling off nothing is looked up: the crawler waits the
   * configured rate and the page alone decides.
   */
  lemma RobotsOffWaitsConfiguredRate(cfg: CrawlerConfig, io: Collaborators, cache: Cache,
                                     visited: set<Url>, url: Url, depth: nat)
    requires IndexMaps.Valid(cache) && !cfg.robots && Admits(cfg, visited, url, depth)
    ensures Decide(cfg, io, cache, visited, url, depth)
         == Decision(PageVerdict(cfg, io, url), cache, Some(cfg.rateLimitWaitSeconds))
  {
  }

  /**
   * A site whose robots.txt cannot be requested is crawled as if it had
   * none: no entry is cached, nothing is waited and no rule is checked.
   */
  lemma UnreachableRobotsFailsOpen(cfg: CrawlerConfig, io: Collaborators, cache: Cache,
                                   visited: set<Url>, url: Url, depth: nat, host: string)
    requires IndexMaps.Valid(cache) && cfg.robots && Admits(cfg, visited, url, depth)
    requires io.host(url) == Some(host) && DomainKey(io.domain(url)) !in cache.values
    requires io.getRobots(RobotsUrl(io.scheme(url), host)) == NoResponse
    ensures Decide(cfg, io, cache, visited, url, depth)
         == Decision(PageVerdict(cfg, io, url), cache, None)
  {
  }

  /** With robots handling on, a URL without a host ends the crawl with an error before any wait. */
  lemma MissingHostIsAnError(cfg: CrawlerConfig, io: Collaborators, cache: Cache,
                             visited: set<Url>, url: Url, depth: nat)
    requires IndexMaps.Valid(cache) && cfg.robots && Admits(cfg, visited, url, depth)
    requires io.host(url).None?
    ensures Decide(cfg, io, cache, visited, url, depth) == Decision(Failed(HostNotFound), cache, None)
  {
  }

  /**
   * A cached domain is not asked again: the stored body decides, the
   * cache stays as it is, and the wait is the delay parsed from the body
   * when the crawler filled the cache itself.
   */
  lemma CachedPolicyDecides(cfg: CrawlerConfig, io: Collaborators, cache: Cache,
                            visited: set<Url>, url: Url, depth: nat, host: string)
    requires IndexMaps.Valid(cache) && Consistent(cache)
    requires cfg.robots && Admits(cfg, visited, url, depth) && io.host(url) == Some(host)
    requires DomainKey(io.domain(url)) in cache.values
    ensures var entry := cache.values[DomainKey(io.domain(url))];
      var d := Decide(cfg, io, cache, visited, url, depth);
      && d.cache == cache
      && d.wait == Some(CrawlDelay(entry.content))
      && d.verdict == (if io.allowedByRobots(entry.content, cfg.userAgent, url)
                       then PageVerdict(cfg, io, url) else Disallowed)
  {
    HitDelayIsParsedDelay(cache, DomainKey(io.domain(url)),
                          io.getRobots(RobotsUrl(io.scheme(url), host)));
  }

  /**
   * A freshly fetched robots.txt is cached under the domain, waited for
   * with the delay parsed from it (1 second when it names none, whatever
   * the configured rate), and then checked.
   */
  lemma FreshPolicyIsCachedAndObeyed(cfg: CrawlerConfig, io: Collaborators, cache: Cache,
                                     visited: set<Url>, url: Url, depth: nat,
                                     host: string, text: string)
    requires IndexMaps.Valid(cache) && cfg.robots && Admits(cfg, visited, url, depth)
    requires io.host(url) == Some(host) && DomainKey(io.domain(url)) !in cache.values
    requires io.getRobots(RobotsUrl(io.scheme(url), host)) == Responded(Some(text))
    ensures var d := Decide(cfg, io, cache, visited, url, depth);
      && d.cache.keys == cache.keys + [DomainKey(io.domain(url))]
      && d.cache.values == cache.values[DomainKey(io.domain(url)) := RobotsEntry(text, Some(CrawlDelay(text)))]
      && d.wait == Some(CrawlDelay(text))
      && d.verdict == (if io.allowedByRobots(text, cfg.userAgent, url)
                       then PageVerdict(cfg, io, url) else Disallowed)
    ensures (forall j | 0 <= j < |Lines(text)| :: LineDelay(Lines(text)[j]).None?) ==>
      Decide(cfg, io, cache, visited, url, depth).wait == Some(RATE_LIMIT_WAIT_SECONDS)
  {
    var key := DomainKey(io.domain(url));
    MissInsertsOneEntry(cache, key, text);
    assert Decide(cfg, io, cache, visited, url, depth).cache.values
        == cache.values[key := RobotsEntry(text, Some(CrawlDelay(text)))];
    if forall j | 0 <= j < |Lines(text)| :: LineDelay(Lines(text)[j]).None? {
      CrawlDelayDefault(text);
    }
  }

  /**
   * The cache is keyed by domain alone. Once a fresh robots.txt has been
   * cached for `first`, every later URL with the same key is judged by that
   * body and waits its delay, for as long as the crawler lives. This holds
   * for another scheme or port of the same host, and for any two hosts
   * that are IP addresses, all of which share the key "".
   */
  lemma SameKeySharesPolicy(cfg: CrawlerConfig, io: Collaborators, cache: Cache,
                            visited: set<Url>, first: Url, depth: nat, host: string, text: string,
                            later: Cache, laterVisited: set<Url>, second: Url, laterDepth: nat,
                            laterHost: string)
    requires IndexMaps.Valid(cache) && cfg.robots && Admits(cfg, visited, first, depth)
    requires io.host(first) == Some(host) && DomainKey(io.domain(first)) !in cache.values
    requires io.getRobots(RobotsUrl(io.scheme(first), host)) == Responded(Some(text))
    requires IndexMaps.Valid(later) && Consistent(later)
    requires Extends(later, Decide(cfg, io, cache, visited, first, depth).cache)
    requires Admits(cfg, laterVisited, second, laterDepth) && io.host(second) == Some(laterHost)
    requires DomainKey(io.domain(second)) == DomainKey(io.domain(first))
    ensures var d := Decide(cfg, io, later, laterVisited, second, laterDepth);
      && d.cache == later
      && d.wait == Some(CrawlDelay(text))
      && d.verdict == (if io.allowedByRobots(text, cfg.userAgent, second)
                       then PageVerdict(cfg, io, second) else Disallowed)
  {
    var key := DomainKey(io.domain(first));
    FreshPolicyIsCachedAndObeyed(cfg, io, cache, visited, first, depth, host, text);
    assert later.values[key].content == text;
    CachedPolicyDecides(cfg, io, later, laterVisited, second, laterDepth, laterHost);
  }

  /** A robots.txt that could not be read ends the crawl of the page with an error. */
  lemma UnreadableRobotsIsAnError(cfg: CrawlerConfig, io: Collaborators, cache: Cache,
                                  visited: set<Url>, url: Url, depth: nat, host: string)
    requires IndexMaps.Valid(cache) && cfg.robots && Admits(cfg, visited, url, depth)
    requires io.host(url) == Some(host) && DomainKey(io.domain(url)) !in cache.values
    requires io.getRobots(RobotsUrl(io.scheme(url), host)) == Responded(None)
    ensures Decide(cfg, io, cache, visited, url, depth)
         == Decision(Failed(RobotsUnreadable), cache, None)
  {
  }

  /**
   * Past the depth limit, or with the page budget spent, a call is refused
   * and changes nothing; in particular a crawler with no page budget
   * refuses its seed and `start` returns an empty result.
   */
  lemma ExhaustedBudgetIsRefused(cfg: CrawlerConfig, io: Collaborators, cache: Cache,
                                 visited: set<Url>, url: Url, depth: nat)
    requires IndexMaps.Valid(cache)
    requires depth > cfg.maxDepth || |visited| >= cfg.maxPages
    ensures Decide(cfg, io, cache, visited, url, depth) == Decision(Refused, cache, None)
    ensures cfg.maxPages == 0 ==> Decide(cfg, io, cache, {}, url, 0).verdict == Refused
  {
  }

  /** Once a URL is recorded as visited, every later call for it is refused and changes nothing. */
  lemma VisitedUrlIsRefused(cfg: CrawlerConfig, io: Collaborators, cache: Cache,
                            visited: set<Url>, url: Url, depth: nat)
    requires IndexMaps.Valid(cache) && url in visited
    ensures Decide(cfg, io, cache, visited, url, depth) == Decision(Refused, cache, None)
  {
  }
}

=== FILE: crawler.dfy ===
/**
 * `Crawler::crawl` and `Crawler::start` (src/lib.rs:127-355): a depth- and
 * page-bounded recursive crawl that consults the per-domain robots.txt
 * cache, waits, fetches the page, skips Cloudflare challenges, filters by
 * media type, stores the UTF-8 text and follows the page's links.
 *
 * The libraries the crawler calls (URL parsing and joining, the HTTP
 * client, the robots.txt matcher, media-type sniffing and parsing, UTF-8
 * decoding, HTML link extraction) are the fields of `Collaborators`, each
 * an arbitrary total function, so every property below holds whatever
 * they answer, given that a repeated request gets the same answer.
 */
module Crawling {
  import opened Wrappers
  import opened IndexMaps
  import opened RobotsTxt
  import opened Config
  import opened RobotsCache

  /** A parsed absolute URL, identified by its serialization. */
  type Url = string

  newtype Byte = b: int | 0 <= b < 0x100

  /**
   * The answer to a page request: none at all, or the response headers
   * (lower-case name to first value) and the body, if it could be read.
   */
  datatype PageFetch =
    | SendFailed
    | Received(headers: map<string, string>, body: Option<seq<Byte>>)

  datatype Collaborators = Collaborators(
    parseUrl: string -> Option<Url>,                  // Url::parse
    scheme: Url -> string,                            // Url::scheme
    host: Url -> Option<string>,                      // Url::host, displayed
    domain: Url -> Option<string>,                    // Url::domain
    join: (Url, string) -> Option<Url>,               // Url::join
    getRobots: string -> RobotsFetch,                 // GET robots.txt, then Response::text
    get: Url -> PageFetch,                            // GET the page, then Response::bytes
    allowedByRobots: (string, string, Url) -> bool,   // one_agent_allowed_by_robots
    sniff: seq<Byte> -> Option<string>,               // infer::get(..).mime_type()
    parseMime: string -> Option<Mime>,                // Mime::from_str
    decodeUtf8: seq<Byte> -> Option<string>,          // String::from_utf8
    extractLinks: string -> seq<string>)              // Crawler::extract_links

  /** The errors `crawl` and `start` propagate with `?`. */
  datatype CrawlError =
    | InvalidUrl | HostNotFound | RobotsUnreadable | RequestFailed | BodyUnreadable | InvalidUtf8

  /** How the crawl of one page ends, before any link is followed. */
  datatype Verdict =
    | Refused           // a base case: too deep, page budget spent, or already visited
    | Failed(error: CrawlError)
    | Disallowed        // robots.txt forbids the page to this user agent
    | Challenged        // Cloudflare answered with a challenge
    | Discarded         // the media-type filter dropped the page
    | Stored(text: string)

  /** The verdict, the robots cache afterwards and the wait, if any, before the fetch. */
  datatype Decision = Decision(verdict: Verdict, cache: Cache, wait: Option<U64>)

  datatype Gate = Pass | Stop(verdict: Verdict)

  datatype Gated = Gated(gate: Gate, cache: Cache, wait: Option<U64>)

  /** The base cases of `crawl` (src/lib.rs:164-177), negated. */
  predicate Admits(cfg: CrawlerConfig, visited: set<Url>, url: Url, depth: nat) {
    depth <= cfg.maxDepth && |visited| < cfg.maxPages && url !in visited
  }

  function RobotsUrl(scheme: string, host: string): string {
    scheme + "://" + host + "/robots.txt"
  }

  /** A `cf-mitigated: challenge` header (src/lib.rs:257). */
  predicate IsChallenge(headers: map<string, string>) {
    "cf-mitigated" in headers && headers["cf-mitigated"] == "challenge"
  }

  /**
   * The media-type filter as written (src/lib.rs:266-276): with a
   * non-empty list it drops a page whose sniffed type is in the list, or
   * could not be sniffed, or does not parse.
   */
  predicate MimeDiscards(allowed: seq<Mime>, sniffed: Option<string>, parse: string -> Option<Mime>) {
    && |allowed| > 0
    && match sniffed {
         case None => true
         case Some(t) => match parse(t) {
           case None => true
           case Some(m) => m in allowed
         }
       }
  }

  /**
   * The robots.txt step (src/lib.rs:182-252). With robots handling off
   * the crawler waits the configured rate. With it on, a URL without a
   * host is an error; otherwise the cache is consulted under the URL's
   * domain, a known policy is waited for and then checked, and a site
   * that did not answer is crawled without a check and without a wait.
   */
  function RobotsGate(cfg: CrawlerConfig, io: Collaborators, cache: Cache, url: Url): (g: Gated)
    requires IndexMaps.Valid(cache)
    ensures IndexMaps.Valid(g.cache) && Extends(g.cache, cache)
    ensures Consistent(cache) ==> Consistent(g.cache)
    ensures !cfg.robots ==> g == Gated(Pass, cache, Some(cfg.rateLimitWaitSeconds))
    ensures g.gate.Stop? ==> g.gate.verdict.Disallowed? || g.gate.verdict.Failed?
  {
    if !cfg.robots then
      Gated(Pass, cache, Some(cfg.rateLimitWaitSeconds))
    else
      match io.host(url)
      case None => Gated(Stop(Failed(HostNotFound)), cache, None)
      case Some(host) =>
        var l := GetOrPopulate(cache, DomainKey(io.domain(url)),
                               io.getRobots(RobotsUrl(io.scheme(url), host)));
        match l.probe
        case Known(p) =>
          var gate := if io.allowedByRobots(p.text, cfg.userAgent, url) then Pass else Stop(Disallowed);
          Gated(gate, l.cache, Some(p.delay))
        case Unknown => Gated(Pass, l.cache, None)
        case Unreadable => Gated(Stop(Failed(RobotsUnreadable)), l.cache, None)
  }

  /** Fetching and classifying the page itself (src/lib.rs:254-286). */
  function PageVerdict(cfg: CrawlerConfig, io: Collaborators, url: Url): (v: Verdict)
    ensures !v.Refused? && !v.Disallowed?
    ensures v.Stored? ==> io.get(url).Received? && !IsChallenge(io.get(url).headers)
  {
    match io.get(url)
    case SendFailed => Failed(RequestFailed)
    case Received(headers, body) =>
      if IsChallenge(headers) then Challenged
      else match body
        case None => Failed(CrawlError.BodyUnreadable)
        case Some(page) =>
          if MimeDiscards(cfg.allowedMimes, io.sniff(page), io.parseMime) then Discarded
          else match io.decodeUtf8(page)
            case None => Failed(InvalidUtf8)
            case Some(text) => Stored(text)
  }

  /**
   * The page at `url` answered with a response that was no challenge,
   * whose body was read, passed the media-type filter as written, and
   * decodes as UTF-8 to `text`.
   */
  predicate PageKept(cfg: CrawlerConfig, io: Collaborators, url: Url, text: string) {
    match io.get(url)
    case SendFailed => false
    case Received(headers, body) =>
      && !IsChallenge(headers) && body.Some?
      && (|cfg.allowedMimes| > 0 ==>
            var sniffed := io.sniff(body.value);
            && sniffed.Some? && io.parseMime(sniffed.value).Some?
            && io.parseMime(sniffed.value).value !in cfg.allowedMimes)
      && io.decodeUtf8(body.value) == Some(text)
  }

  /** A page is stored with `text` exactly when it was kept with that text. */
  lemma StoredIffKept(cfg: CrawlerConfig, io: Collaborators, url: Url, text: string)
    ensures PageVerdict(cfg, io, url) == Stored(text) <==> PageKept(cfg, io, url, text)
  {
  }

  /**
   * The robots step let `u` through, as `cache` still records it: with
   * robots handling on, `u` has a host, and either the body cached under
   * its key allows it to the user agent, or its robots.txt request could
   * not be sent, so no rule was checked.
   */
  predicate RobotsPassed(cfg: CrawlerConfig, io: Collaborators, cache: Cache, u: Url) {
    cfg.robots ==>
      && io.host(u).Some?
      && ((&& DomainKey(io.domain(u)) in cache.values
           && io.allowedByRobots(cache.values[DomainKey(io.domain(u))].content, cfg.userAgent, u))
          || io.getRobots(RobotsUrl(io.scheme(u), io.host(u).value)) == NoResponse)
  }

  /** A grown cache still records every pass: entries are never replaced. */
  lemma RobotsPassedExtends(cfg: CrawlerConfig, io: Collaborators, pages: set<Url>, a: Cache, b: Cache)
    requires Extends(b, a)
    requires forall u | u in pages :: RobotsPassed(cfg, io, a, u)
    ensures forall u | u in pages :: RobotsPassed(cfg, io, b, u)
  {
  }

  /**
   * Everything `crawl` decides about one page before it follows links:
   * the specification the `Crawler.Visit` method is proved against.
   */
  function Decide(cfg: CrawlerConfig, io: Collaborators, cache: Cache, visited: set<Url>,
                  url: Url, depth: nat): (d: Decision)
    requires IndexMaps.Valid(cache)
    ensures IndexMaps.Valid(d.cache) && Extends(d.cache, cache)
    ensures Consistent(cache) ==> Consistent(d.cache)
    ensures d.verdict.Refused? <==> !Admits(cfg, visited, url, depth)
    ensures d.verdict.Refused? || !cfg.robots ==> d.cache == cache
  {
    if !Admits(cfg, visited, url, depth) then
      Decision(Refused, cache, None)
    else
      var g := RobotsGate(cfg, io, cache, url);
      match g.gate
      case Stop(v) => Decision(v, g.cache, g.wait)
      case Pass => Decision(PageVerdict(cfg, io, url), g.cache, g.wait)
  }

  /** A page that is stored passed the robots step, as the cache afterwards records it. */
  lemma StoredPassedRobots(cfg: CrawlerConfig, io: Collaborators, cache: Cache, visited: set<Url>,
                           url: Url, depth: nat)
    requires IndexMaps.Valid(cache)
    requires Decide(cfg, io, cache, visited, url, depth).verdict.Stored?
    ensures RobotsPassed(cfg, io, Decide(cfg, io, cache, visited, url, depth).cache, url)
  {
    var g := RobotsGate(cfg, io, cache, url);
    assert g.gate.Pass? && Decide(cfg, io, cache, visited, url, depth).cache == g.cache;
    GatePassRecorded(cfg, io, cache, url);
  }

  /** A URL the robots step lets through is recorded as passed in the cache it leaves. */
  lemma GatePassRecorded(cfg: CrawlerConfig, io: Collaborators, cache: Cache, url: Url)
    requires IndexMaps.Valid(cache)
    requires RobotsGate(cfg, io, cache, url).gate.Pass?
    ensures RobotsPassed(cfg, io, RobotsGate(cfg, io, cache, url).cache, url)
  {
    if cfg.robots {
      assert io.host(url).Some?;
      var l := GetOrPopulate(cache, DomainKey(io.domain(url)),
                             io.getRobots(RobotsUrl(io.scheme(url), io.host(url).value)));
      assert RobotsGate(cfg, io, cache, url).cache == l.cache && !l.probe.Unreadable?;
    }
  }

  /** One call of `crawl`, as the ghost trace records it. */
  datatype Call = Call(url: Url, depth: nat)

  /** `a` is an initial part of `b`. */
  ghost predicate Prefix<T>(a: seq<T>, b: seq<T>) {
    |a| <= |b| && forall k | 0 <= k < |a| :: b[k] == a[k]
  }

  lemma PrefixTransitive<T>(a: seq<T>, b: seq<T>, c: seq<T>)
    requires Prefix(a, b) && Prefix(b, c)
    ensures Prefix(a, c)
  {
  }

  /** `c` is among the calls recorded from position `from` on. */
  ghost predicate CalledIn(trace: seq<Call>, from: nat, c: Call) {
    exists k | from <= k < |trace| :: trace[k] == c
  }

  /** `child` is what `url.join` makes of one of the first `n` links. */
  ghost predicate ResolvesAmong(io: Collaborators, url: Url, links: seq<string>, n: int, child: Url) {
    exists j | 0 <= j < n && j < |links| :: io.join(url, links[j]) == Some(child)
  }

  /** `child` is what `url.join` makes of one of `links`. */
  ghost predicate Resolves(io: Collaborators, url: Url, links: seq<string>, child: Url) {
    ResolvesAmong(io, url, links, |links|, child)
  }

  /** The wait a decision asks for, as a list of zero or one delays. */
  function Waits(wait: Option<U64>): seq<U64> {
    if wait.Some? then [wait.value] else []
  }

  /**
   * The crawler. `visited` and `content` are the sets `start` creates
   * afresh and shares with every `crawl`; the robots cache lives as long
   * as the crawler. The ghost `trace` lists every call of `crawl` in the
   * order the calls begin, and `delays` every wait in the order waited.
   */
  class Crawler {
    const config: CrawlerConfig
    const io: Collaborators
    var robotsCache: Cache
    var visited: set<Url>
    var content: IndexMap<Url, string>
    ghost var trace: seq<Call>
    ghost var delays: seq<U64>

    ghost predicate Valid()
      reads this
    {
      && IndexMaps.Valid(robotsCache) && Consistent(robotsCache)
      && IndexMaps.Valid(content)
      && content.values.Keys <= visited
      && |visited| <= config.maxPages
      && (forall u | u in content.values :: PageVerdict(config, io, u) == Stored(content.values[u]))
      && (forall u | u in content.values :: RobotsPassed(config, io, robotsCache, u))
    }

    /** `Crawler::from_config`, which `Crawler::new` and `CrawlerBuilder::build` call. */
    constructor (config: CrawlerConfig, io: Collaborators)
      ensures Valid()
      ensures this.config == config && this.io == io
      ensures robotsCache.keys == [] && visited == {} && content.keys == []
      ensures trace == [] && delays == []
    {
      this.config := config;
      this.io := io;
      robotsCache := IndexMaps.Empty();
      visited := {};
      content := IndexMaps.Empty();
      trace := [];
      delays := [];
    }

    /** Looking the URL's domain up in the robots cache, fetching on a miss (src/lib.rs:189-233). */
    method ConsultRobots(url: Url, host: string) returns (probe: Probe)
      requires Valid()
      modifies this`robotsCache
      ensures Valid()
      ensures var l := GetOrPopulate(old(robotsCache), DomainKey(io.domain(url)),
                                     io.getRobots(RobotsUrl(io.scheme(url), host)));
        probe == l.probe && robotsCache == l.cache
    {
      var key := DomainKey(io.domain(url));
      if key in robotsCache.values {
        var entry := robotsCache.values[key];
        probe := Known(Policy(entry.content, entry.crawlDelay.GetOr(RATE_LIMIT_WAIT_SECONDS)));
      } else {
        var fetched := io.getRobots(RobotsUrl(io.scheme(url), host));
        match fetched {
          case NoResponse =>
            probe := Unknown;
          case Responded(None) =>
            probe := Unreadable;
          case Responded(Some(text)) =>
            var delay := CrawlDelay(text);
            robotsCache := IndexMaps.Insert(robotsCache, key, RobotsEntry(text, Some(delay)));
            probe := Known(Policy(text, delay));
            RobotsPassedExtends(config, io, content.values.Keys, old(robotsCache), robotsCache);
        }
      }
    }

    /** The robots.txt step of `crawl`, waits included (src/lib.rs:182-252). */
    method PassRobots(url: Url) returns (gate: Gate)
      requires Valid()
      modifies this`robotsCache, this`delays
      ensures Valid()
      ensures var g := RobotsGate(config, io, old(robotsCache), url);
        gate == g.gate && robotsCache == g.cache && delays == old(delays) + Waits(g.wait)
    {
      if config.robots {
        var host := io.host(url);
        if host.None? {
          return Stop(Failed(HostNotFound));
        }
        var probe := ConsultRobots(url, host.value);
        match probe {
          case Known(policy) =>
            delays := delays + [policy.delay];
            if !io.allowedByRobots(policy.text, config.userAgent, url) {
              return Stop(Disallowed);
            }
            return Pass;
          case Unknown =>
            return Pass;
          case Unreadable =>
            return Stop(Failed(RobotsUnreadable));
        }
      } else {
        delays := delays + [config.rateLimitWaitSeconds];
        return Pass;
      }
    }

    /** Fetching the page and classifying what came back (src/lib.rs:254-286). */
    method FetchPage(url: Url) returns (v: Verdict)
      ensures v == PageVerdict(config, io, url)
    {
      var response := io.get(url);
      if response.SendFailed? {
        return Failed(RequestFailed);
      }
      if IsChallenge(response.headers) {
        return Challenged;
      }
      if response.body.None? {
        return Failed(CrawlError.BodyUnreadable);
      }
      var page := response.body.value;
      if MimeDiscards(config.allowedMimes, io.sniff(page), io.parseMime) {
        return Discarded;
      }
      var text := io.decodeUtf8(page);
      if text.None? {
        return Failed(InvalidUtf8);
      }
      return Stored(text.value);
    }

    /** The part of `crawl` up to storing the page (src/lib.rs:164-301). */
    method Visit(url: Url, depth: nat) returns (v: Verdict)
      requires Valid()
      modifies this`robotsCache, this`visited, this`content, this`delays
      ensures Valid()
      ensures var d := Decide(config, io, old(robotsCache), old(visited), url, depth);
        && v == d.verdict && robotsCache == d.cache
        && delays == old(delays) + Waits(d.wait)
        && visited == (if v.Discarded? || v.Stored? then old(visited) + {url} else old(visited))
        && content == (if v.Stored? then IndexMaps.Insert(old(content), url, v.text) else old(content))
      ensures v.Stored? ==> url !in old(content).values
      ensures Extends(content, old(content))
    {
      if depth > config.maxDepth || |visited| >= config.maxPages || url in visited {
        return Refused;
      }
      var gate := PassRobots(url);
      if gate.Stop? {
        return gate.verdict;
      }
      v := FetchPage(url);
      assert Decide(config, io, old(robotsCache), old(visited), url, depth).verdict == v;
      if v.Discarded? {
        visited := visited + {url};
      } else if v.Stored? {
        StoredPassedRobots(config, io, old(robotsCache), old(visited), url, depth);
        content := IndexMaps.Insert(content, url, v.text);
        visited := visited + {url};
      }
    }

    /** `crawl` (src/lib.rs:155-325). */
    method Crawl(url: Url, depth: nat) returns (r: Result<(), CrawlError>)
      requires Valid()
      modifies this
      decreases if depth <= config.maxDepth then config.maxDepth + 1 - depth else 0, 1
      ensures Valid()
      ensures old(visited) <= visited
      ensures Extends(content, old(content)) && Extends(robotsCache, old(robotsCache))
      ensures Prefix(old(trace) + [Call(url, depth)], trace)
      ensures Prefix(old(delays) + Waits(Decide(config, io, old(robotsCache), old(visited), url, depth).wait), delays)
      ensures forall k | |old(trace)| < k < |trace| :: trace[k].depth > depth
      ensures var d := Decide(config, io, old(robotsCache), old(visited), url, depth);
        && (r.Err? <==> d.verdict.Failed?)
        && (r.Err? ==> r.error == d.verdict.error)
        && (!d.verdict.Stored? ==>
              && robotsCache == d.cache && content == old(content)
              && |trace| == |old(trace)| + 1 && delays == old(delays) + Waits(d.wait)
              && visited == (if d.verdict.Discarded? then old(visited) + {url} else old(visited)))
        && (d.verdict.Stored? ==>
              && url !in old(content).values && url in content.values
              && content.values[url] == d.verdict.text
              && |content.keys| > |old(content).keys| && content.keys[|old(content).keys|] == url
              && url in visited && Extends(robotsCache, d.cache))
        && (|trace| > |old(trace)| + 1 ==> d.verdict.Stored? && |old(visited)| + 1 < config.maxPages)
        && (d.verdict.Stored? && |old(visited)| + 1 < config.maxPages ==>
              var links := io.extractLinks(d.verdict.text);
              forall j | 0 <= j < |links| && io.join(url, links[j]).Some? ::
                CalledIn(trace, |old(trace)| + 1, Call(io.join(url, links[j]).value, depth + 1)))
        && (forall k | |old(trace)| < k < |trace| && trace[k].depth == depth + 1 ::
              d.verdict.Stored? && Resolves(io, url, io.extractLinks(d.verdict.text), trace[k].url))
        && (visited - old(visited) <= {url} ||
              (d.verdict.Stored? && |old(visited)| + 1 < config.maxPages && depth < config.maxDepth))
    {
      ghost var d := Decide(config, io, robotsCache, visited, url, depth);
      trace := trace + [Call(url, depth)];
      var v := Visit(url, depth);
      assert v == d.verdict;
      if v.Failed? {
        return Err(v.error);
      }
      if v.Stored? {
        assert |visited| == |old(visited)| + 1;
        if |visited| < config.maxPages {
          ghost var (cache1, content1, delays1) := (robotsCache, content, delays);
          FollowLinks(url, depth, io.extractLinks(v.text));
          PrefixTransitive(old(delays) + Waits(d.wait), delays1, delays);
          ExtendsTransitive(old(robotsCache), cache1, robotsCache);
          ExtendsTransitive(old(content), content1, content);
        }
      }
      return Ok(());
    }

    /**
     * Crawling every link that joins onto `url`, one level deeper, in the
     * order the links appear; the children's results are ignored
     * (src/lib.rs:304-320).
     */
    method FollowLinks(url: Url, depth: nat, links: seq<string>)
      requires Valid() && depth <= config.maxDepth
      modifies this
      decreases config.maxDepth + 1 - depth, 0
      ensures Valid()
      ensures old(visited) <= visited
      ensures Extends(content, old(content)) && Extends(robotsCache, old(robotsCache))
      ensures Prefix(old(trace), trace) && Prefix(old(delays), delays)
      ensures forall k | |old(trace)| <= k < |trace| :: trace[k].depth > depth
      ensures forall j | 0 <= j < |links| && io.join(url, links[j]).Some? ::
        CalledIn(trace, |old(trace)|, Call(io.join(url, links[j]).value, depth + 1))
      ensures forall k | |old(trace)| <= k < |trace| && trace[k].depth == depth + 1 ::
        Resolves(io, url, links, trace[k].url)
      ensures depth == config.maxDepth ==> visited == old(visited)
    {
      var i := 0;
      while i < |links|
        invariant 0 <= i <= |links|
        invariant Valid()
        invariant old(visited) <= visited
        invariant Extends(content, old(content)) && Extends(robotsCache, old(robotsCache))
        invariant Prefix(old(trace), trace) && Prefix(old(delays), delays)
        invariant forall k | |old(trace)| <= k < |trace| :: trace[k].depth > depth
        invariant forall j | 0 <= j < i && io.join(url, links[j]).Some? ::
          CalledIn(trace, |old(trace)|, Call(io.join(url, links[j]).value, depth + 1))
        invariant forall k | |old(trace)| <= k < |trace| && trace[k].depth == depth + 1 ::
          ResolvesAmong(io, url, links, i, trace[k].url)
        invariant depth == config.maxDepth ==> visited == old(visited)
      {
        ghost var (before, waited) := (trace, delays);
        CrawlLink(url, depth, links[i]);
        PrefixTransitive(old(trace), before, trace);
        PrefixTransitive(old(delays), waited, delays);
        ghost var child := io.join(url, links[i]);
        if child.Some? {
          assert trace[|before|] == Call(child.value, depth + 1);
        }
        i := i + 1;
      }
    }

    /** Joining one link onto `url` and crawling it if the join succeeds (src/lib.rs:315-318). */
    method CrawlLink(url: Url, depth: nat, link: string)
      requires Valid() && depth <= config.maxDepth
      modifies this
      decreases config.maxDepth - depth, 3
      ensures Valid()
      ensures old(visited) <= visited
      ensures Extends(content, old(content)) && Extends(robotsCache, old(robotsCache))
      ensures Prefix(old(trace), trace) && Prefix(old(delays), delays)
      ensures io.join(url, link).None? ==> trace == old(trace)
      ensures io.join(url, link).Some? ==>
        Prefix(old(trace) + [Call(io.join(url, link).value, depth + 1)], trace)
      ensures forall k | |old(trace)| <= k < |trace| :: trace[k].depth > depth
      ensures forall k | |old(trace)| <= k < |trace| && trace[k].depth == depth + 1 ::
        io.join(url, link) == Some(trace[k].url)
      ensures depth == config.maxDepth ==> visited == old(visited)
    {
      var child := io.join(url, link);
      if child.Some? {
        var _ := Crawl(child.value, depth + 1);
      }
    }

    /** `start` (src/lib.rs:343-354): parse the seed, then crawl from depth 0 with fresh sets. */
    method Start(seed: string) returns (r: Result<IndexMap<Url, string>, CrawlError>)
      requires Valid()
      modifies this
      ensures Valid()
      ensures Extends(robotsCache, old(robotsCache))
      ensures io.parseUrl(seed).None? ==>
        r == Err(InvalidUrl) && robotsCache == old(robotsCache)
        && visited == old(visited) && content == old(content)
        && trace == old(trace) && delays == old(delays)
      ensures io.parseUrl(seed).Some? ==>
        var root := io.parseUrl(seed).value;
        var d := Decide(config, io, old(robotsCache), {}, root, 0);
        && (r.Err? <==> d.verdict.Failed?)
        && (r.Err? ==> r.error == d.verdict.error)
        && (r.Ok? ==>
              && r.value == content && IndexMaps.Valid(r.value)
              && |r.value.keys| <= config.maxPages
              && (d.verdict.Stored? ==>
                    |r.value.keys| > 0 && r.value.keys[0] == root && r.value.values[root] == d.verdict.text)
              && (!d.verdict.Stored? ==> r.value.keys == [])
              && (forall u | u in r.value.values :: PageKept(config, io, u, r.value.values[u]))
              && (forall u | u in r.value.values :: RobotsPassed(config, io, robotsCache, u))
              && (config.maxDepth == 0 || config.maxPages <= 1 ==> r.value.values.Keys <= {root}))
    {
      var root := io.parseUrl(seed);
      if root.None? {
        return Err(InvalidUrl);
      }
      visited := {};
      content := IndexMaps.Empty();
      var result := Crawl(root.value, 0);
      if result.Err? {
        return Err(result.error);
      }
      forall u | u in content.values ensures PageKept(config, io, u, content.values[u]) {
        StoredIffKept(config, io, u, content.values[u]);
      }
      IndexMaps.LengthIsSize(content);
      SubsetSize(content.values.Keys, visited);
      return Ok(content);
    }
  }

  lemma {:induction false} SubsetSize<T>(a: set<T>, b: set<T>)
    requires a <= b
    ensures |a| <= |b|
    decreases |b|
  {
    if a != {} {
      var x :| x in a;
      SubsetSize(a - {x}, b - {x});
    }
  }
}

=== FILE: index_map.dfy ===
/**
 * An insertion-ordered map in the manner of the `indexmap` crate: the keys
 * in the order they were first inserted, beside an ordinary map holding
 * the current value of each key.
 */
module IndexMaps {

  datatype IndexMap<K(==,!new), V> = IndexMap(keys: seq<K>, values: map<K, V>)

  /** Every key is listed exactly once, and the listed keys are the map's keys. */
  ghost predicate Valid<K(!new), V>(m: IndexMap<K, V>) {
    && (forall i, j :: 0 <= i < j < |m.keys| ==> m.keys[i] != m.keys[j])
    && (forall k :: k in m.values <==> k in m.keys)
  }

  function Empty<K(==,!new), V>(): (m: IndexMap<K, V>)
    ensures Valid(m) && m.keys == [] && m.values == map[]
  {
    IndexMap([], map[])
  }

  /**
   * `IndexMap::insert`: a new key goes to the end of the order; an existing
   * key keeps its place and only its value is replaced.
   */
  function Insert<K(==,!new), V>(m: IndexMap<K, V>, k: K, v: V): (r: IndexMap<K, V>)
    requires Valid(m)
    ensures Valid(r)
    ensures k in r.values && r.values[k] == v
    ensures forall k' :: k' != k ==> (k' in r.values <==> k' in m.values)
    ensures forall k' :: k' != k && k' in m.values ==> r.values[k'] == m.values[k']
    ensures k in m.values ==> r.keys == m.keys
    ensures k !in m.values ==> r.keys == m.keys + [k]
  {
    if k in m.values then IndexMap(m.keys, m.values[k := v])
    else IndexMap(m.keys + [k], m.values[k := v])
  }

  /** `a` is a part of `b`: every entry of `a` is in `b` with the same value. */
  ghost predicate Extends<K(!new), V>(b: IndexMap<K, V>, a: IndexMap<K, V>) {
    && a.keys <= b.keys
    && (forall k :: k in a.values ==> k in b.values && b.values[k] == a.values[k])
  }

  lemma ExtendsTransitive<K(!new), V>(a: IndexMap<K, V>, b: IndexMap<K, V>, c: IndexMap<K, V>)
    requires Extends(b, a) && Extends(c, b)
    ensures Extends(c, a)
  {
    assert a.keys <= c.keys by {
      assert a.keys == b.keys[..|a.keys|];
      assert b.keys == c.keys[..|b.keys|];
    }
  }

  /** A valid map lists as many keys as it holds: no key is listed twice. */
  lemma LengthIsSize<K(!new), V>(m: IndexMap<K, V>)
    requires Valid(m)
    ensures |m.keys| == |m.values|
  {
    DistinctElements(m.keys);
    assert m.values.Keys == Elements(m.keys);
  }

  ghost function Elements<K(!new)>(xs: seq<K>): set<K> {
    set x | x in xs
  }

  /** A sequence without repetitions has as many elements as its set. */
  lemma {:induction false} DistinctElements<K(!new)>(xs: seq<K>)
    requires forall i, j :: 0 <= i < j < |xs| ==> xs[i] != xs[j]
    ensures |Elements(xs)| == |xs|
    decreases |xs|
  {
    if xs != [] {
      var init, last := xs[..|xs| - 1], xs[|xs| - 1];
      assert forall i, j :: 0 <= i < j < |init| ==> init[i] != init[j] by {
        assert forall i | 0 <= i < |init| :: init[i] == xs[i];
      }
      DistinctElements(init);
      assert last !in init by {
        assert forall i | 0 <= i < |init| :: init[i] == xs[i];
      }
      assert Elements(xs) == Elements(init) + {last} by {
        assert xs == init + [last];
      }
    }
  }
}

=== FILE: robots_cache.dfy ===
/**
 * The per-domain robots.txt cache of `Crawler::crawl` (src/lib.rs:189-233):
 * an insertion-ordered map from a domain key to the robots.txt body and
 * the Crawl-delay parsed from it, consulted before every page fetch and
 * filled on a miss.
 */
module RobotsCache {
  import opened Wrappers
  import opened IndexMaps
  import opened RobotsTxt

  /** One cached robots.txt (`struct RobotsCache`). */
  datatype RobotsEntry = RobotsEntry(content: string, crawlDelay: Option<U64>)

  type Cache = IndexMap<string, RobotsEntry>

  /**
   * What asking a site for its robots.txt gave: no response at all (the
   * request could not be sent), or a response of any HTTP status whose
   * body could or could not be read as text.
   */
  datatype RobotsFetch = NoResponse | Responded(body: Option<string>)

  /** A robots.txt body and the delay to wait before fetching under it. */
  datatype Policy = Policy(text: string, delay: U64)

  /**
   * The outcome of one consultation: a policy; no policy, so that the
   * allow check is skipped; or an unreadable body, which ends the crawl
   * of the page with an error.
   */
  datatype Probe = Known(policy: Policy) | Unknown | Unreadable

  datatype Lookup = Lookup(probe: Probe, cache: Cache)

  /** The cache key: `url.domain()`, or "" when the host is not a domain name. */
  function DomainKey(domain: Option<string>): (key: string)
    ensures domain.Some? ==> key == domain.value
    ensures domain.None? ==> key == ""
  {
    domain.GetOr("")
  }

  /** Every entry holds the delay parsed from its own body. */
  ghost predicate Consistent(cache: Cache) {
    forall k | k in cache.values ::
      cache.values[k].crawlDelay == Some(CrawlDelay(cache.values[k].content))
  }

  /**
   * Get-or-populate (src/lib.rs:194-231). A hit answers from the entry; a
   * miss with a readable response stores the body with `Some(delay)`; a
   * miss without a response, or with an unreadable body, stores nothing.
   */
  function GetOrPopulate(cache: Cache, key: string, fetch: RobotsFetch): (r: Lookup)
    requires IndexMaps.Valid(cache)
    ensures IndexMaps.Valid(r.cache)
    ensures Extends(r.cache, cache)
    ensures forall k | k in r.cache.values :: k in cache.values || k == key
    ensures Consistent(cache) ==> Consistent(r.cache)
    ensures r.probe.Known? ==> key in r.cache.values && r.cache.values[key].content == r.probe.policy.text
    ensures r.probe.Unknown? <==> key !in cache.values && fetch == NoResponse
  {
    if key in cache.values then
      var e := cache.values[key];
      Lookup(Known(Policy(e.content, e.crawlDelay.GetOr(RATE_LIMIT_WAIT_SECONDS))), cache)
    else
      match fetch
      case NoResponse => Lookup(Unknown, cache)
      case Responded(None) => Lookup(Unreadable, cache)
      case Responded(Some(text)) =>
        var delay := CrawlDelay(text);
        Lookup(Known(Policy(text, delay)), Insert(cache, key, RobotsEntry(text, Some(delay))))
  }

  /** A hit leaves the cache as it was and answers with the stored entry. */
  lemma HitAnswersFromEntry(cache: Cache, key: string, fetch: RobotsFetch)
    requires IndexMaps.Valid(cache) && key in cache.values
    ensures GetOrPopulate(cache, key, fetch).cache == cache
    ensures GetOrPopulate(cache, key, fetch).probe
         == Known(Policy(cache.values[key].content,
                         cache.values[key].crawlDelay.GetOr(RATE_LIMIT_WAIT_SECONDS)))
  {
  }

  /**
   * In a cache the crawler filled itself, a hit gives the same delay as
   * parsing the body afresh: the `unwrap_or` fallback on a hit never fires.
   */
  lemma HitDelayIsParsedDelay(cache: Cache, key: string, fetch: RobotsFetch)
    requires IndexMaps.Valid(cache) && Consistent(cache) && key in cache.values
    ensures GetOrPopulate(cache, key, fetch).probe.policy.delay
         == CrawlDelay(cache.values[key].content)
  {
  }

  /**
   * A miss with a readable response adds exactly one entry, under the key,
   * at the end of the order, and changes no other entry.
   */
  lemma MissInsertsOneEntry(cache: Cache, key: string, text: string)
    requires IndexMaps.Valid(cache) && key !in cache.values
    ensures var r := GetOrPopulate(cache, key, Responded(Some(text)));
      && r.probe == Known(Policy(text, CrawlDelay(text)))
      && r.cache.keys == cache.keys + [key]
      && r.cache.values.Keys == cache.values.Keys + {key}
      && r.cache.values[key] == RobotsEntry(text, Some(CrawlDelay(text)))
      && (forall k | k in cache.values :: r.cache.values[k] == cache.values[k])
  {
  }

  /** A miss without a usable response changes nothing. */
  lemma MissWithoutBodyStoresNothing(cache: Cache, key: string, fetch: RobotsFetch)
    requires IndexMaps.Valid(cache) && key !in cache.values
    requires fetch == NoResponse || fetch == Responded(None)
    ensures GetOrPopulate(cache, key, fetch).cache == cache
    ensures GetOrPopulate(cache, key, fetch).probe
         == (if fetch == NoResponse then Unknown else Unreadable)
  {
  }
}

=== FILE: robots_txt.dfy ===
/**
 * The Crawl-delay extraction the crawler applies to a freshly fetched
 * robots.txt body (src/lib.rs:208-218), together with the pieces of the
 * Rust standard library it is built from: `str::lines`, `str::contains`,
 * `split(':').last()`, `str::trim` and `u64::from_str`.
 */
module RobotsTxt {
  import opened Wrappers

  /** 2^64: the first value a `u64` cannot hold. */
  const U64_LIMIT: nat := 0x1_0000_0000_0000_0000

  type U64 = n: nat | n < U64_LIMIT

  /** The delay used when no line yields one (`RATE_LIMIT_WAIT_SECONDS`). */
  const RATE_LIMIT_WAIT_SECONDS: U64 := 1

  /** The case-sensitive token a line must contain to be considered. */
  const CRAWL_DELAY_TOKEN: string := "Crawl-delay"

  // ---------------------------------------------------------------------
  // str::lines

  /**
   * Length of the first line of `s`: the position of the first '\n', or
   * the whole of `s` when it has none.
   */
  function LineLength(s: string): (n: nat)
    ensures n <= |s|
    ensures '\n' !in s[..n]
    ensures n < |s| ==> s[n] == '\n'
  {
    if s == [] || s[0] == '\n' then 0
    else
      var n := 1 + LineLength(s[1..]);
      assert s[..n] == [s[0]] + s[1..][..n - 1];
      n
  }

  /** Removes one trailing carriage return, if there is one. */
  function StripCr(line: string): string {
    if |line| > 0 && line[|line| - 1] == '\r' then line[..|line| - 1] else line
  }

  /**
   * Rust's `str::lines`: the text is cut after every '\n'; a line that was
   * ended by '\n' loses it and then one '\r' before it; a last line with
   * no '\n' is kept as it is; there is no empty line after a final '\n'.
   */
  function Lines(s: string): (ls: seq<string>)
    decreases |s|
  {
    if s == [] then []
    else
      var n := LineLength(s);
      if n == |s| then [s]
      else [StripCr(s[..n])] + Lines(s[n + 1..])
  }

  /** The text made of `ls`, each line ended by '\n'. */
  function Terminated(ls: seq<string>): string {
    if ls == [] then [] else ls[0] + "\n" + Terminated(ls[1..])
  }

  /** A line `Lines` can give back unchanged: no '\n', no trailing '\r'. */
  predicate IsPlainLine(l: string) {
    '\n' !in l && (l == [] || l[|l| - 1] != '\r')
  }

  /** Cutting a text that was made of terminated lines gives those lines back. */
  lemma {:induction false} LinesOfTerminated(ls: seq<string>, tail: string)
    requires forall i | 0 <= i < |ls| :: IsPlainLine(ls[i])
    ensures Lines(Terminated(ls) + tail) == ls + Lines(tail)
  {
    if ls == [] {
      assert Terminated(ls) + tail == tail;
    } else {
      var rest := Terminated(ls[1..]) + tail;
      assert forall i | 0 <= i < |ls[1..]| :: IsPlainLine(ls[1..][i]) by {
        assert forall i | 0 <= i < |ls[1..]| :: ls[1..][i] == ls[i + 1];
      }
      LinesOfTerminated(ls[1..], tail);
      TerminatedFirst(ls, tail);
      LinesOfLine(ls[0], rest);
      ConsAppend(ls, Lines(tail));
    }
  }

  /** Unfolding `Terminated` once, with text after it. */
  lemma TerminatedFirst(ls: seq<string>, tail: string)
    requires ls != []
    ensures Terminated(ls) + tail == ls[0] + "\n" + (Terminated(ls[1..]) + tail)
  {
  }

  lemma ConsAppend<T>(xs: seq<T>, ys: seq<T>)
    requires xs != []
    ensures xs + ys == [xs[0]] + (xs[1..] + ys)
  {
  }

  /** A plain line followed by '\n' is the first line of the text. */
  lemma LinesOfLine(l: string, rest: string)
    requires IsPlainLine(l)
    ensures Lines(l + "\n" + rest) == [l] + Lines(rest)
  {
    var s := l + "\n" + rest;
    assert s == l + ("\n" + rest);
    LineLengthAt(l, "\n" + rest);
    assert s[..|l|] == l && s[|l| + 1..] == rest;
  }

  /** A plain line ended by "\r\n" loses both characters. */
  lemma LinesOfCrLf(l: string, rest: string)
    requires IsPlainLine(l)
    ensures Lines(l + "\r\n" + rest) == [l] + Lines(rest)
  {
    var cr := l + "\r";
    var s := l + "\r\n" + rest;
    assert s == cr + ("\n" + rest);
    LineLengthAt(cr, "\n" + rest);
    assert s[..|cr|] == cr && s[|cr| + 1..] == rest;
    assert StripCr(cr) == l;
  }

  /** The first line of `l + rest` is `l` when `l` has no '\n' and `rest` starts with one. */
  lemma {:induction false} LineLengthAt(l: string, rest: string)
    requires '\n' !in l && |rest| > 0 && rest[0] == '\n'
    ensures LineLength(l + rest) == |l|
  {
    if l != [] {
      assert (l + rest)[1..] == l[1..] + rest;
      LineLengthAt(l[1..], rest);
    }
  }

  /** A non-empty text without '\n' is one line. */
  lemma SingleLine(s: string)
    requires s != [] && '\n' !in s
    ensures Lines(s) == [s]
  {
    assert forall i | 0 <= i < |s| :: s[i] != '\n';
  }

  // ---------------------------------------------------------------------
  // str::contains

  /** `pat` occurs in `s` starting at position `i`. */
  predicate OccursAt(s: string, pat: string, i: int) {
    0 <= i && i + |pat| <= |s| && s[i..i + |pat|] == pat
  }

  /** Substring search, `str::contains` with a string pattern. */
  function Contains(s: string, pat: string): (b: bool)
    ensures b <==> exists i :: OccursAt(s, pat, i)
    decreases |s|
  {
    if |pat| > |s| then false
    else if s[..|pat|] == pat then
      assert OccursAt(s, pat, 0);
      true
    else
      var b := Contains(s[1..], pat);
      assert b ==> exists i :: OccursAt(s, pat, i) by {
        if b {
          var i :| OccursAt(s[1..], pat, i);
          assert s[i + 1..i + 1 + |pat|] == s[1..][i..i + |pat|];
          assert OccursAt(s, pat, i + 1);
        }
      }
      assert (exists i :: OccursAt(s, pat, i)) ==> b by {
        if exists i :: OccursAt(s, pat, i) {
          var i :| OccursAt(s, pat, i);
          assert i != 0;
          assert s[1..][i - 1..i - 1 + |pat|] == s[i..i + |pat|];
          assert OccursAt(s[1..], pat, i - 1);
        }
      }
      b
  }

  // ---------------------------------------------------------------------
  // split(':').last()

  /**
   * The piece of `s` after its last ':' (all of `s` when it has none).
   * `split` always yields at least one piece, so `last()` never fails.
   */
  function LastSegment(s: string): (r: string)
    ensures ':' !in r
    ensures |r| <= |s| && r == s[|s| - |r|..]
    ensures |r| < |s| ==> s[|s| - |r| - 1] == ':'
  {
    if s == [] then []
    else if s[|s| - 1] == ':' then []
    else
      var r0 := LastSegment(s[..|s| - 1]);
      SuffixStep(s, r0);
      r0 + [s[|s| - 1]]
  }

  /** A suffix of all but the last character, extended by that character. */
  lemma SuffixStep(s: string, r0: string)
    requires s != [] && |r0| <= |s| - 1 && r0 == s[..|s| - 1][|s| - 1 - |r0|..]
    ensures r0 + [s[|s| - 1]] == s[|s| - |r0| - 1..]
    ensures |r0| + 1 < |s| ==> s[|s| - |r0| - 2] == s[..|s| - 1][|s| - 2 - |r0|]
  {
  }

  // ---------------------------------------------------------------------
  // str::trim

  /** Unicode White_Space, the property `char::is_whitespace` tests. */
  predicate IsWhitespace(c: char) {
    var n := c as int;
    || (0x09 <= n <= 0x0D) || n == 0x20 || n == 0x85 || n == 0xA0
    || n == 0x1680 || (0x2000 <= n <= 0x200A) || n == 0x2028 || n == 0x2029
    || n == 0x202F || n == 0x205F || n == 0x3000
  }

  predicate AllWhitespace(s: string) {
    forall i | 0 <= i < |s| :: IsWhitespace(s[i])
  }

  /** Neither end of `t` is white space. */
  predicate IsTrimmed(t: string) {
    t == [] || (!IsWhitespace(t[0]) && !IsWhitespace(t[|t| - 1]))
  }

  function TrimStart(s: string): (r: string)
    ensures |r| <= |s| && r == s[|s| - |r|..]
    ensures AllWhitespace(s[..|s| - |r|])
    ensures r == [] || !IsWhitespace(r[0])
  {
    if s != [] && IsWhitespace(s[0]) then
      var r := TrimStart(s[1..]);
      WhitespaceStep(s, r);
      r
    else s
  }

  /** One more white-space character in front of what `TrimStart` removed. */
  lemma WhitespaceStep(s: string, r: string)
    requires s != [] && IsWhitespace(s[0])
    requires |r| <= |s| - 1 && r == s[1..][|s| - 1 - |r|..]
    requires AllWhitespace(s[1..][..|s| - 1 - |r|])
    ensures r == s[|s| - |r|..] && AllWhitespace(s[..|s| - |r|])
  {
    var k := |s| - |r|;
    forall i | 1 <= i < k ensures IsWhitespace(s[i]) {
      assert s[i] == s[1..][..k - 1][i - 1];
    }
  }

  function TrimEnd(s: string): (r: string)
    ensures |r| <= |s| && r == s[..|r|]
    ensures AllWhitespace(s[|r|..])
    ensures r == [] || !IsWhitespace(r[|r| - 1])
  {
    if s != [] && IsWhitespace(s[|s| - 1]) then
      var r := TrimEnd(s[..|s| - 1]);
      assert s[|r|..] == s[..|s| - 1][|r|..] + [s[|s| - 1]];
      r
    else s
  }

  /** `str::trim`: white space removed from both ends. */
  function Trim(s: string): (r: string)
    ensures IsTrimmed(r)
    ensures |r| <= |s|
  {
    TrimEnd(TrimStart(s))
  }

  /** Trimming takes exactly the white-space padding off a trimmed text. */
  lemma TrimPadded(pre: string, t: string, post: string)
    requires AllWhitespace(pre) && AllWhitespace(post) && IsTrimmed(t)
    ensures Trim(pre + t + post) == t
  {
    if t == [] {
      assert pre + t + post == pre + post;
      TrimWhitespaceOnly(pre, post);
    } else {
      TrimAround(pre, t, post);
    }
  }

  lemma TrimWhitespaceOnly(pre: string, post: string)
    requires AllWhitespace(pre) && AllWhitespace(post)
    ensures Trim(pre + post) == []
  {
    var s := pre + post;
    assert AllWhitespace(s) by {
      assert forall i | |pre| <= i < |s| :: s[i] == post[i - |pre|];
    }
    TrimStartAllWhitespace(s);
  }

  lemma TrimAround(pre: string, t: string, post: string)
    requires AllWhitespace(pre) && AllWhitespace(post) && t != [] && IsTrimmed(t)
    ensures Trim(pre + t + post) == t
  {
    assert pre + t + post == pre + (t + post);
    TrimStartPadded(pre, t + post);
    TrimEndPadded(t, post);
  }

  lemma {:induction false} TrimStartAllWhitespace(s: string)
    requires AllWhitespace(s)
    ensures TrimStart(s) == []
  {
    if s != [] {
      TrimStartAllWhitespace(s[1..]);
    }
  }

  lemma {:induction false} TrimStartPadded(pre: string, rest: string)
    requires AllWhitespace(pre) && (rest == [] || !IsWhitespace(rest[0]))
    ensures TrimStart(pre + rest) == rest
  {
    if pre != [] {
      assert (pre + rest)[1..] == pre[1..] + rest;
      TrimStartPadded(pre[1..], rest);
    }
  }

  lemma {:induction false} TrimEndPadded(t: string, post: string)
    requires AllWhitespace(post) && (t == [] || !IsWhitespace(t[|t| - 1]))
    ensures TrimEnd(t + post) == t
  {
    if post != [] {
      assert (t + post)[..|t + post| - 1] == t + post[..|post| - 1];
      TrimEndPadded(t, post[..|post| - 1]);
    }
  }

  // ---------------------------------------------------------------------
  // u64::from_str

  predicate IsDigit(c: char) {
    '0' <= c <= '9'
  }

  predicate AllDigits(s: string) {
    forall i | 0 <= i < |s| :: IsDigit(s[i])
  }

  /** The number a string of ASCII decimal digits denotes. */
  function DigitsValue(ds: string): nat
    requires AllDigits(ds)
  {
    if ds == [] then 0
    else DigitsValue(ds[..|ds| - 1]) * 10 + (ds[|ds| - 1] as int - '0' as int)
  }

  /**
   * `u64::from_str`: one optional leading '+', then at least one ASCII
   * digit; anything else, and any value of 2^64 or more, is an error.
   */
  function ParseU64(s: string): (r: Option<U64>)
    ensures r.Some? ==> s != [] && s != "+"
  {
    var ds := if |s| > 0 && s[0] == '+' then s[1..] else s;
    if ds == [] || !AllDigits(ds) then None
    else
      var v := DigitsValue(ds);
      if v < U64_LIMIT then Some(v) else None
  }

  /** The decimal notation of `n`, without sign or leading zeros. */
  function Decimal(n: nat): (ds: string)
    ensures ds != []
  {
    if n < 10 then [('0' as int + n) as char]
    else Decimal(n / 10) + [('0' as int + n % 10) as char]
  }

  lemma {:induction false} DecimalValue(n: nat)
    ensures AllDigits(Decimal(n)) && DigitsValue(Decimal(n)) == n
  {
    if n >= 10 {
      DecimalValue(n / 10);
      var ds := Decimal(n);
      assert ds[..|ds| - 1] == Decimal(n / 10);
    }
  }

  /** Parsing the decimal notation of a `u64`, with or without '+', gives it back. */
  lemma ParseDecimal(n: U64)
    ensures ParseU64(Decimal(n)) == Some(n)
    ensures ParseU64("+" + Decimal(n)) == Some(n)
  {
    DecimalValue(n);
    assert ("+" + Decimal(n))[1..] == Decimal(n);
  }

  /** A value past the `u64` range is refused rather than wrapped. */
  lemma ParseRejectsOverflow(n: nat)
    requires n >= U64_LIMIT
    ensures ParseU64(Decimal(n)) == None
  {
    DecimalValue(n);
  }

  /** Leading zeros do not change the value of a digit string. */
  lemma {:induction false} LeadingZerosValue(zeros: string, ds: string)
    requires forall i | 0 <= i < |zeros| :: zeros[i] == '0'
    requires AllDigits(ds)
    ensures AllDigits(zeros + ds) && DigitsValue(zeros + ds) == DigitsValue(ds)
    decreases |ds|
  {
    var s := zeros + ds;
    assert AllDigits(s) by {
      forall i | 0 <= i < |s| ensures IsDigit(s[i]) {
        if i < |zeros| { assert s[i] == zeros[i]; } else { assert s[i] == ds[i - |zeros|]; }
      }
    }
    if ds == [] {
      assert s == zeros;
      ZerosValue(zeros);
    } else {
      assert s[..|s| - 1] == zeros + ds[..|ds| - 1];
      LeadingZerosValue(zeros, ds[..|ds| - 1]);
    }
  }

  lemma {:induction false} ZerosValue(zeros: string)
    requires forall i | 0 <= i < |zeros| :: zeros[i] == '0'
    ensures AllDigits(zeros) && DigitsValue(zeros) == 0
    decreases |zeros|
  {
    if zeros != [] {
      ZerosValue(zeros[..|zeros| - 1]);
    }
  }

  /** Leading zeros are accepted and ignored, after a '+' too: `"007"` and `"+007"` parse to 7. */
  lemma ParseLeadingZeros(zeros: string, n: U64)
    requires forall i | 0 <= i < |zeros| :: zeros[i] == '0'
    ensures ParseU64(zeros + Decimal(n)) == Some(n)
    ensures ParseU64("+" + zeros + Decimal(n)) == Some(n)
  {
    var t := zeros + Decimal(n);
    DecimalValue(n);
    LeadingZerosValue(zeros, Decimal(n));
    assert IsDigit(t[0]);
    PlusPrefix(t);
    assert "+" + zeros + Decimal(n) == "+" + t;
  }

  /** A '+' in front of a text that starts with a digit changes nothing. */
  lemma PlusPrefix(t: string)
    requires t != [] && IsDigit(t[0])
    ensures ParseU64("+" + t) == ParseU64(t)
  {
    assert ("+" + t)[1..] == t;
  }

  /**
   * Any character that is not a digit makes the parse fail, except one
   * '+' in first position: `"3x"` and `" 3"` are refused.
   */
  lemma ParseRejectsNonDigit(s: string, i: int)
    requires 0 <= i < |s| && !IsDigit(s[i]) && (i > 0 || s[0] != '+')
    ensures ParseU64(s) == None
  {
    if s[0] == '+' {
      assert s[1..][i - 1] == s[i];
    }
  }

  /** A minus sign is not accepted by the unsigned parser, nor is a lone '+'. */
  lemma ParseRejectsSign(s: string)
    ensures ParseU64("-" + s) == None
    ensures ParseU64("+") == None
  {
    assert !IsDigit(("-" + s)[0]);
  }

  /**
   * The ways a text fails to be a `u64`: it is empty or a lone '+', it holds
   * a character that is not a digit (other than a '+' in first position),
   * or its digits, with or without a leading '+', denote 2^64 or more.
   */
  predicate NotANumber(t: string) {
    || t == []
    || t == "+"
    || (exists i | 0 <= i < |t| :: !IsDigit(t[i]) && (i > 0 || t[0] != '+'))
    || (AllDigits(t) && DigitsValue(t) >= U64_LIMIT)
    || (t[0] == '+' && AllDigits(t[1..]) && DigitsValue(t[1..]) >= U64_LIMIT)
  }

  /** `u64::from_str` refuses a text exactly when it is not a number. */
  lemma ParseFailsIffNotANumber(t: string)
    ensures ParseU64(t) == None <==> NotANumber(t)
  {
    var ds := if |t| > 0 && t[0] == '+' then t[1..] else t;
    if ParseU64(t) == None && ds != [] && !AllDigits(ds) {
      var i :| 0 <= i < |ds| && !IsDigit(ds[i]);
      if |t| > 0 && t[0] == '+' {
        assert t[i + 1] == ds[i];
      } else {
        assert t[i] == ds[i];
      }
    }
    if NotANumber(t) && t != [] && t != "+" {
      if i :| 0 <= i < |t| && !IsDigit(t[i]) && (i > 0 || t[0] != '+') {
        ParseRejectsNonDigit(t, i);
      }
    }
  }

  // ---------------------------------------------------------------------
  // The extraction itself

  /**
   * The delay one robots.txt line yields, if any: the line must contain
   * the token, and what follows its last ':' must trim to a `u64`.
   */
  function LineDelay(line: string): Option<U64> {
    if Contains(line, CRAWL_DELAY_TOKEN) then ParseU64(Trim(LastSegment(line)))
    else None
  }

  /** The `filter_map` step: the delay each line yields, in order. */
  function Delays(ls: seq<string>): seq<Option<U64>> {
    seq(|ls|, i requires 0 <= i < |ls| => LineDelay(ls[i]))
  }

  /** The `next()` step: the first present value. */
  function FirstSome<T>(ys: seq<Option<T>>): Option<T> {
    if ys == [] then None
    else if ys[0].Some? then ys[0]
    else FirstSome(ys[1..])
  }

  /** The delay extracted from a robots.txt body (src/lib.rs:208-218). */
  function CrawlDelay(body: string): U64 {
    FirstSome(Delays(Lines(body))).GetOr(RATE_LIMIT_WAIT_SECONDS)
  }

  /** `ys[i]` is present and nothing before it is. */
  predicate IsFirstSome<T>(ys: seq<Option<T>>, i: int) {
    && 0 <= i < |ys|
    && ys[i].Some?
    && forall j | 0 <= j < i :: ys[j].None?
  }

  lemma {:induction false} FirstSomeIsFirst<T>(ys: seq<Option<T>>, i: int)
    requires IsFirstSome(ys, i)
    ensures FirstSome(ys) == ys[i]
  {
    if i > 0 {
      assert ys[0].None?;
      assert IsFirstSome(ys[1..], i - 1) by {
        forall j | 0 <= j < i - 1 ensures ys[1..][j].None? {
          assert ys[1..][j] == ys[j + 1];
        }
      }
      FirstSomeIsFirst(ys[1..], i - 1);
    }
  }

  lemma {:induction false} FirstSomeNone<T>(ys: seq<Option<T>>)
    requires forall j | 0 <= j < |ys| :: ys[j].None?
    ensures FirstSome(ys) == None
  {
    if ys != [] {
      assert ys[0].None?;
      FirstSomeNone(ys[1..]);
    }
  }

  /** Line `i` yields a delay and no line before it does. */
  predicate IsFirstQualifying(ls: seq<string>, i: int) {
    && 0 <= i < |ls|
    && LineDelay(ls[i]).Some?
    && forall j | 0 <= j < i :: LineDelay(ls[j]).None?
  }

  /** Either some value is the first present one, or none is present. */
  lemma {:induction false} FirstSomeExists<T>(ys: seq<Option<T>>)
    ensures (exists i :: IsFirstSome(ys, i)) || (forall j | 0 <= j < |ys| :: ys[j].None?)
  {
    if ys != [] {
      if ys[0].Some? {
        assert IsFirstSome(ys, 0);
      } else {
        FirstSomeExists(ys[1..]);
        if i :| IsFirstSome(ys[1..], i) {
          assert IsFirstSome(ys, i + 1) by {
            forall j | 0 < j < i + 1 ensures ys[j].None? {
              assert ys[j] == ys[1..][j - 1];
            }
          }
        } else {
          forall j | 0 < j < |ys| ensures ys[j].None? {
            assert ys[j] == ys[1..][j - 1];
          }
        }
      }
    }
  }

  /**
   * Every body falls under one of the two lemmas below: some line is the
   * first that yields a delay, or no line yields one.
   */
  lemma CrawlDelayCases(body: string)
    ensures || (exists i :: IsFirstQualifying(Lines(body), i))
            || (forall j | 0 <= j < |Lines(body)| :: LineDelay(Lines(body)[j]).None?)
  {
    QualifyingCases(Lines(body));
  }

  lemma QualifyingCases(ls: seq<string>)
    ensures (exists i :: IsFirstQualifying(ls, i)) || (forall j | 0 <= j < |ls| :: LineDelay(ls[j]).None?)
  {
    var ds := Delays(ls);
    FirstSomeExists(ds);
    if i :| IsFirstSome(ds, i) {
      assert ds[i] == LineDelay(ls[i]);
      forall j | 0 <= j < i ensures LineDelay(ls[j]).None? {
        assert ds[j] == LineDelay(ls[j]);
      }
      assert IsFirstQualifying(ls, i);
    } else {
      forall j | 0 <= j < |ls| ensures LineDelay(ls[j]).None? {
        assert ds[j] == LineDelay(ls[j]);
      }
    }
  }

  /** The extracted delay is that of the first line that yields one ... */
  lemma CrawlDelayIsFirstQualifying(body: string, i: int)
    requires IsFirstQualifying(Lines(body), i)
    ensures CrawlDelay(body) == LineDelay(Lines(body)[i]).value
  {
    var ds := Delays(Lines(body));
    assert IsFirstSome(ds, i);
    FirstSomeIsFirst(ds, i);
  }

  /** ... and 1, whatever the configured rate, when no line yields one. */
  lemma CrawlDelayDefault(body: string)
    requires forall j | 0 <= j < |Lines(body)| :: LineDelay(Lines(body)[j]).None?
    ensures CrawlDelay(body) == RATE_LIMIT_WAIT_SECONDS
  {
    FirstSomeNone(Delays(Lines(body)));
  }

  /** The piece after the last ':' of `pre + ":" + v` is `v` when `v` has no ':'. */
  lemma {:induction false} LastSegmentAfterColon(pre: string, v: string)
    requires ':' !in v
    ensures LastSegment(pre + ":" + v) == v
  {
    var s := pre + ":" + v;
    if v == [] {
      assert s[|s| - 1] == ':';
    } else {
      var init := v[..|v| - 1];
      assert ':' !in init by {
        forall i | 0 <= i < |init| ensures init[i] != ':' {
          assert init[i] == v[i];
        }
      }
      assert s[..|s| - 1] == pre + ":" + init;
      LastSegmentAfterColon(pre, init);
      assert v == init + [v[|v| - 1]];
    }
  }

  /** A line `Crawl-delay:<v>` yields whatever `v` trims and parses to. */
  lemma DirectiveLine(v: string)
    requires ':' !in v
    ensures LineDelay(CRAWL_DELAY_TOKEN + ":" + v) == ParseU64(Trim(v))
  {
    var line := CRAWL_DELAY_TOKEN + ":" + v;
    assert line[0..|CRAWL_DELAY_TOKEN|] == CRAWL_DELAY_TOKEN;
    assert OccursAt(line, CRAWL_DELAY_TOKEN, 0);
    LastSegmentAfterColon(CRAWL_DELAY_TOKEN, v);
  }

  /** Decimal notation contains neither ':' nor '\n'. */
  lemma DecimalIsPlain(n: nat)
    ensures ':' !in Decimal(n) && '\n' !in Decimal(n)
  {
    DecimalValue(n);
    var ds := Decimal(n);
    forall i | 0 <= i < |ds| ensures ds[i] != ':' && ds[i] != '\n' {
      assert IsDigit(ds[i]);
    }
  }

  lemma DigitsAreTrimmed(ds: string)
    requires AllDigits(ds)
    ensures IsTrimmed(ds)
  {
    if ds != [] {
      assert IsDigit(ds[0]) && IsDigit(ds[|ds| - 1]);
    }
  }

  /** One leading space is trimmed away. */
  lemma SpacePadded(t: string)
    requires IsTrimmed(t)
    ensures Trim(" " + t) == t
  {
    var sp := " ";
    assert AllWhitespace(sp) by {
      assert sp[0] == ' ';
    }
    TrimPadded(sp, t, []);
    assert sp + t + [] == " " + t;
  }

  /** The line `Crawl-delay: <n>` yields `n`. */
  lemma DirectiveLineDelay(n: U64)
    ensures LineDelay(CRAWL_DELAY_TOKEN + ":" + (" " + Decimal(n))) == Some(n)
  {
    var v := " " + Decimal(n);
    DecimalIsPlain(n);
    assert ':' !in v;
    DirectiveLine(v);
    assert Trim(v) == Decimal(n) by {
      DecimalValue(n);
      DigitsAreTrimmed(Decimal(n));
      SpacePadded(Decimal(n));
    }
    ParseDecimal(n);
  }

  /** The text of a `Crawl-delay: <n>` directive. */
  function Directive(n: U64): string {
    CRAWL_DELAY_TOKEN + ":" + (" " + Decimal(n))
  }

  lemma DirectiveIsOneLine(n: U64)
    ensures '\n' !in Directive(n)
  {
    DecimalIsPlain(n);
    assert '\n' !in CRAWL_DELAY_TOKEN + ":" + " ";
    assert Directive(n) == (CRAWL_DELAY_TOKEN + ":" + " ") + Decimal(n);
  }

  /** A body that is one directive line gives that line's value. */
  lemma SingleDirective(n: U64)
    ensures CrawlDelay(Directive(n)) == n
  {
    var line := Directive(n);
    DirectiveLineDelay(n);
    DirectiveIsOneLine(n);
    SingleLine(line);
    CrawlDelayIsFirstQualifying(line, 0);
  }

  /** A plain line, '\n', and a last line without '\n' are two lines. */
  lemma LinesOfTwo(first: string, second: string)
    requires IsPlainLine(first) && second != [] && '\n' !in second
    ensures Lines(first + "\n" + second) == [first, second]
  {
    LinesOfLine(first, second);
    SingleLine(second);
  }

  /**
   * A line that yields no delay is skipped rather than ending the search:
   * a directive on the next line still counts.
   */
  lemma SkipsUnparseable(body: string, bad: string, line: string)
    requires Lines(body) == [bad, line]
    requires LineDelay(bad).None? && LineDelay(line).Some?
    ensures CrawlDelay(body) == LineDelay(line).value
  {
    SecondIsFirstSome(Delays(Lines(body)));
  }

  lemma SecondIsFirstSome<T>(ys: seq<Option<T>>)
    requires |ys| == 2 && ys[0].None? && ys[1].Some?
    ensures FirstSome(ys) == ys[1]
  {
    assert ys[1..] == [ys[1]];
  }

  /** The directive with a value that is not a number yields nothing. */
  lemma NonNumericDirective(v: string)
    requires ':' !in v && NotANumber(Trim(v))
    ensures LineDelay(CRAWL_DELAY_TOKEN + ":" + v) == None
  {
    DirectiveLine(v);
    ParseFailsIffNotANumber(Trim(v));
  }

  /** `"Crawl-delay: 3"` gives 3. */
  lemma ExampleSingleDirective()
    ensures CrawlDelay("Crawl-delay: 3") == 3
  {
    assert Decimal(3) == "3";
    assert "Crawl-delay: 3" == Directive(3);
    SingleDirective(3);
  }

  /** `"007"` gives 7, and `"3x"` gives nothing. */
  lemma ExampleParses()
    ensures ParseU64("007") == Some(7)
    ensures ParseU64("3x") == None
  {
    ParseLeadingZeros("00", 7);
    assert "00" + Decimal(7) == "007";
    ParseRejectsNonDigit("3x", 1);
  }

  /** `"Crawl-delay: x\nCrawl-delay: 4"` gives 4. */
  lemma ExampleSkipsUnparseable()
    ensures CrawlDelay("Crawl-delay: x\nCrawl-delay: 4") == 4
  {
    var bad := "Crawl-delay: x";
    ExampleShape(bad);
    XLineYieldsNothing();
    DirectiveLineDelay(4);
    DirectiveIsOneLine(4);
    LinesOfTwo(bad, Directive(4));
    SkipsUnparseable(bad + "\n" + Directive(4), bad, Directive(4));
  }

  lemma ExampleShape(bad: string)
    requires bad == "Crawl-delay: x"
    ensures bad == CRAWL_DELAY_TOKEN + ":" + (" " + "x")
    ensures IsPlainLine(bad)
    ensures "Crawl-delay: x\nCrawl-delay: 4" == bad + "\n" + Directive(4)
  {
    DirectiveFour();
  }

  lemma XLineYieldsNothing()
    ensures LineDelay(CRAWL_DELAY_TOKEN + ":" + (" " + "x")) == None
  {
    assert !IsDigit("x"[0]);
    PaddedNonDigitDirective("x");
  }

  /** `Crawl-delay: <v>` with a value that starts with neither a digit nor '+' yields nothing. */
  lemma PaddedNonDigitDirective(v: string)
    requires v != [] && ':' !in v && IsTrimmed(v) && !IsDigit(v[0]) && v[0] != '+'
    ensures LineDelay(CRAWL_DELAY_TOKEN + ":" + (" " + v)) == None
  {
    SpacePadded(v);
    assert NotANumber(v);
    NonNumericDirective(" " + v);
  }

  lemma DirectiveFour()
    ensures Directive(4) == "Crawl-delay: 4"
  {
    assert Decimal(4) == "4";
  }
}

=== FILE: wrappers.dfy ===
/** Option and Result, the two failure-carrying shapes the crawler uses. */
module Wrappers {

  datatype Option<+T> = None | Some(value: T) {
    /** The wrapped value, or `default` when there is none (Rust `unwrap_or`). */
    function GetOr(default: T): T {
      match this
      case Some(v) => v
      case None => default
    }
  }

  datatype Result<+T, +E> = Ok(value: T) | Err(error: E)
}
